=== FILE: README.md ===
# Media library back end — playlists, folders and uploads

This project models the core of a Node.js media-library server whose clients
talk to it over socket events. The model is in Dafny and covers:

- the playlist controller. It creates playlists, adds and removes content
  items, and hydrates a playlist's content into audio records, slot by slot.
- the folder controller. It checks a folder, lists its content, creates a
  folder both in the database and on disk, renames a folder, reports a
  folder's details, and computes the path of folders from the user's root
  down to a folder (its "emplacement").
- the storage helpers. They compute a user's storage root, resolve a
  folder's absolute path with a glob, classify a size into a unit, and count
  the entries of a folder walk.
- the general helpers. They map MIME types to extensions, split file names,
  run the sequential `forAsync` loop, and build error and success replies.
- the payload validators for playlists, users and media uploads.
- the upload configuration. Its filters accept audio or video by file name.
  Its storage callbacks choose a fresh directory for an upload, create the
  directory's sub-directories, and name the stored file.

Each source file keeps its own form:

- Pure helpers and validators without a loop are functions and lemmas.
- Handlers that change the database and the socket are methods of a store
  class. `PlaylistStore` and `FolderStore` each hold the collection as a
  `map` and the messages emitted so far as a `seq`.
- Loops are `while` loops with invariants. These are the MIME table search,
  the content-fill loop of `getPlaylistContent`, the counters of
  `getFolderNumberStats`, and the do-while of the upload `destination`.

Some things the server gets from outside are inputs to the model:

- the database's answers: a lookup result, a save outcome, duplicate-key
  error 11000;
- `glob.sync`, as a function of pattern and directory;
- the byte count from `du`;
- the per-entry file classification;
- the ObjectIds that get generated;
- the validator library's e-mail check and `isValidObjectId`.

A JavaScript value is the datatype `Common.Value`. `Truthy` follows
JavaScript truthiness. `Text` is the template-literal conversion. Object
identity, as `Set` and `includes` use it, is Dafny equality on the entry
type.

Where the code and the description of the system disagree, the model follows
the code:

- `addItems` passes the merged content through a `Set`, which compares entries by identity. Request items are parsed afresh from the socket message, so they are never identical to stored entries. The `Set` therefore drops no stored duplicate, and `removeContent`'s `includes` removes nothing (see Findings).
- A new playlist is never saved, because `create` does not set the owner that the playlist schema requires (see Findings).
- There is no reorder operation.
- `getPlaylistContent` issues its query even for empty content.
- `rename` of a folder does not check that the folder exists.

## Model

| member | source | states |
|---|---|---|
| Common.Conclude | validations/user.js:19-21 | A verdict is correct exactly when no error was collected, and then it carries no errors. Otherwise it carries the collected errors unchanged. |
| Helpers.FirstListing | helpers/index.js:18-21 | The loop stops at the first table row that lists the MIME type. No earlier row lists it. `None` means no row at or after the start lists it. |
| Helpers.ExtensionFor | helpers/index.js:15-22 | The answer is `undefined` exactly when no row lists the MIME type. Otherwise it is the extension of a row that lists it. |
| Helpers.GetFileExtensionFromMimeType | helpers/index.js:15-22 | The indexed `for` loop returns the extension of the first row that lists the MIME type, or `undefined`. |
| Helpers.GetDefaultMediaExtension | helpers/index.js:29-38 | 'mp3' exactly for audio, 'mp4' exactly for video, 'jpg' for every other type. |
| Helpers.GeMediaExtensionFromMimeType | helpers/index.js:46-57 | A MIME type that mentions no audio, video or image gets the type's default. So does an unlisted type or an empty extension. Otherwise the type gets the table's extension. The result is never empty. |
| Helpers.FileNameInfoSpec | helpers/index.js:64-71 | Neither extension nor base holds a '.'. A name without '.' is all extension. A name with one ends with '.' plus its extension. Base plus extension is the name with its dots removed. |
| Helpers.Loop | helpers/index.js:84-94 | Step `i` runs before step `i + 1`, and every step runs after a settled one. The loop rejects exactly when some step throws synchronously, and that step is the last one called. |
| Helpers.ForAsyncVisitsAll | helpers/index.js:83-96 | When no step throws, `forAsync` calls work on every index in order and resolves. |
| Helpers.GetErrors | helpers/index.js:103-111 | The status is 400, with one `{code, message}` per catalogue error, in the given order. |
| Helpers.GetSuccess | helpers/index.js:118-122 | The status is 200 and the data is kept. The message is 'Success' unless one is given. |
| Strings.SplitJoin | controllers/folder.js:250 | Splitting a '/'-joined path gives back its segments. |
| Strings.NonEmptyParts | controllers/folder.js:250 | `filter(Boolean)` keeps exactly the non-empty parts. |
| Strings.NonEmptyPartsAppend | controllers/folder.js:250 | The filter distributes over concatenation, so it keeps the parts' order and every occurrence. |
| Strings.NonEmptyPartsOne | controllers/folder.js:250 | A single part is kept exactly when it is non-empty. |
| Strings.ReplacePrefix | controllers/folder.js:248 | Replacing the root path at the front of a path leaves the rest of the path. |
| FsHelpers.GetUserStoragePath | helpers/fs.js:86 | The path is the storage root followed by the user id, or by nothing for a falsy id. |
| FsHelpers.UserStoragePathsDistinct | helpers/fs.js:86 | Two different users never share a storage path. |
| FsHelpers.FindStoragePath | helpers/fs.js:95-120 | Throws `UNKNOWN_USER` without a user. Answers the root, without globbing, for a falsy name and for a name that is not a string (an ObjectId or a number). Otherwise the trailing '/' is added for type 'd' and removed for any other type, the name is globbed at any depth, and every match is prefixed with the root. |
| FsHelpers.WithTrailingSlash | helpers/fs.js:146 | The result ends in '/' and is the match itself or the match plus '/'. |
| FsHelpers.GetAbsolutePath | helpers/fs.js:128-150 | Throws `INVALID_USER_AND_NAME` exactly when both name and user are falsy. Without a name the result is root + '/'. Otherwise it is the first match under the root, ending in '/', or `undefined`. |
| FsHelpers.AbsolutePathUnderRoot | helpers/fs.js:128-150 | Every path resolved for a user starts with that user's root path. |
| FsHelpers.GetFolderSize | helpers/fs.js:171-198 | The original size is kept. The unit is Bytes, KB, MB or GB exactly in the ranges split by the strict thresholds 1024, 1024² and 1024³. |
| FsHelpers.FolderSizeUnitMonotone | helpers/fs.js:179-197 | A larger folder is never shown in a smaller unit. |
| FsHelpers.GetFolderNumberStats | helpers/fs.js:209-264 | The counters are the number of directories, of audio-only media and of media with a video stream. `files` is audios plus videos. |
| FsHelpers.CountsBounded | helpers/fs.js:209-264 | The three counters together never exceed the number of entries walked. |
| FolderController.Unknown | controllers/folder.js:22 | The unknown-folder code chosen by `isParent` is in the error catalogue. |
| FolderController.CheckFolder | controllers/folder.js:17-43 | Succeeds exactly for a valid id that is found, and then returns the found folder. A failed lookup gives exactly `INTERNAL_SERVER_ERROR`. Any other failure gives exactly the unknown (parent) folder error. |
| FolderController.MalformedIdSkipsLookup | controllers/folder.js:19-24 | A malformed id is refused the same way whatever the database holds. |
| FolderController.GetFolderContent | controllers/folder.js:52-88 | A missing own `folderId` gives `REQUIRED`. A truthy id whose check fails gives the check's errors. A listing answers the sub-folders, the audios and the folder, which is the root for a falsy id. A failed listing gives `INTERNAL_SERVER_ERROR`. |
| FolderController.RootListingIgnoresLookup | controllers/folder.js:61-79 | Listing the root never consults the folder lookup. |
| FolderController.ParentOf | controllers/folder.js:97 | The parent is `null` exactly when the given one is falsy. |
| FolderController.NewFolderPath | controllers/folder.js:117 | Throws exactly without a parent and without a user. A resolved parent path ends in '/' and the new path is that path followed by the new id, so the directory sits directly inside its parent, under the user's root. An unmatched parent gives "undefined" followed by the id. |
| FolderController.FolderStore.CreateFolder | controllers/folder.js:96-147 | A refused parent emits the check and changes nothing. On success the record and its directory are added. A failed save leaves no record. After a failed mkdir the saved record is gone exactly when the attempted `deleteOne` succeeds. Either failure leaves no directory, and emits `NAME_ALREADY_EXISTS` exactly for error 11000, else `INTERNAL_SERVER_ERROR`. |
| FolderController.FolderStore.Rename | controllers/folder.js:155-177 | A falsy name gives `REQUIRED`. A failed update gives the internal error. Otherwise only the named record's name changes and the old record (or `null`) is emitted. Directories never change. |
| FolderController.GetDetails | controllers/folder.js:186-222 | A missing `folderId` gives `REQUIRED`. Success comes exactly when the folder, its size and its timestamps are all available, with the counts of `getFolderNumberStats`. Any failure gives `INTERNAL_SERVER_ERROR`. |
| FolderController.FirstFolder | controllers/folder.js:255 | `find` returns a record of the response with that id, and `undefined` exactly when none has it. |
| FolderController.SegmentsOf | controllers/folder.js:250 | Every segment is non-empty and holds no '/'. |
| FolderController.SegmentsOfJoin | controllers/folder.js:248-250 | The segments of a '/'-joined id path ending in '/' are those ids. |
| FolderController.GetEmplacementReplies | controllers/folder.js:231-264 | A missing own `folderId` gives `REQUIRED`. A falsy one gives `[]`. Success means both paths and the query resolved, with one `find` per path segment in path order. Every failure is `INTERNAL_SERVER_ERROR`. |
| FolderController.FoundFolderIsTheOne | controllers/folder.js:255 | With unique ids, `find` returns exactly the record with that id. |
| FolderController.EmplacementOrderIrrelevant | controllers/folder.js:252-255 | The answer does not depend on the order of the query's response. |
| FolderController.NestedFolderSegments | controllers/folder.js:245-250 | When the folder's match is the chain of its ancestor ids, the emplacement segments are that chain, root side first. |
| PlaylistController.DedupKeepsEachOnce | controllers/playlist.js:109 | `[...new Set(s)]` keeps every entry of `s`, each once, and is never longer. |
| PlaylistController.RemainingKeeps | controllers/playlist.js:140 | The filter keeps exactly the entries the items do not contain, and is never longer. |
| PlaylistController.AddedContent | controllers/playlist.js:109 | The new content holds exactly the entries of the content or the items, with no duplicates. |
| PlaylistController.DedupAppend | controllers/playlist.js:109 | Removing duplicates from `a + b` is removing them from `a`, then appending what `b` adds. |
| PlaylistController.DedupOfDistinct | controllers/playlist.js:109 | Content with no duplicates passes through the `Set` unchanged. |
| PlaylistController.AddedContentExtends | controllers/playlist.js:109 | Adding keeps duplicate-free content as a prefix and appends only the new entries, once each, in order. |
| PlaylistController.RemainingAppend | controllers/playlist.js:140 | The filter distributes over concatenation. |
| PlaylistController.RemainingIdempotent | controllers/playlist.js:140 | Removing the same items twice is removing them once. |
| PlaylistController.RemainingIsSubsequence | controllers/playlist.js:140 | What is kept is in its original order. |
| PlaylistController.RemainingMultiplicity | controllers/playlist.js:140 | A kept entry keeps all its occurrences. A removed one keeps none. |
| PlaylistController.AddThenRemove | controllers/playlist.js:109-140 | If the very same entry objects are removed that were just added, what remains is the old content, with duplicates removed and without those items. Nothing else is lost or gained. |
| PlaylistController.RemainingOfForeign | controllers/playlist.js:140 | Removing items that occur nowhere in the content changes nothing. |
| PlaylistController.FreshItemsMatchNothing | controllers/playlist.js:109-140 | With freshly parsed items, none of which is a stored entry, removal keeps the whole content. Adding appends every item to duplicate-free content, whatever its id. |
| PlaylistController.RemainingByIdKeeps | controllers/playlist.js:140 | Corrected removal keeps exactly the entries whose id no item names, in their original order. |
| PlaylistController.RemoveSentBackCopy | controllers/playlist.js:140 | A stored entry sent back as a fresh copy survives the code's removal, but removal by id drops it. |
| PlaylistController.PlaylistStore.GetFromDBOnePlaylist | controllers/playlist.js:152-157 | Answers the stored playlist exactly when it exists and the lookup did not fail, else `null`. |
| PlaylistController.PlaylistStore.Create | controllers/playlist.js:71-88 | Takes the owner's id as an input. A falsy name emits `INVALID_NAME`, but the document is still built, with the content defaulting to `[]`. It is stored exactly when it has an owner and the write succeeds. Otherwise nothing changes and the failure message is emitted. Every stored playlist keeps an owner. |
| PlaylistController.PlaylistStore.CreateAsWritten | controllers/playlist.js:76-87 | As written the document has no `userId`, so nothing is ever stored and every call ends with "Error while creating a playlist". |
| PlaylistController.PlaylistStore.AddItems | controllers/playlist.js:97-119 | The guards emit without returning, and missing items abort. A missing playlist gives `INVALID_PLAYLIST_SELECTED`. A found one gets `AddedContent`, or stays unchanged on an update failure. |
| PlaylistController.PlaylistStore.RemoveContent | controllers/playlist.js:128-150 | Same guards as `addItems`. A found playlist keeps `Remaining`. Non-array items abort unless the content is empty. A failed update reuses the "adding items" message. |
| PlaylistController.IdsOfKind | controllers/playlist.js:173-174 | Exactly the ids of entries of that kind. Each collected id has a matching entry. |
| PlaylistController.IdsOfKindOne | controllers/playlist.js:173-174 | One entry contributes its id when it has the kind, and nothing otherwise. |
| PlaylistController.IdsOfKindAppend | controllers/playlist.js:173-174 | Collecting distributes over concatenation, so the ids come in content order, one per matching entry. |
| PlaylistController.AudioAndVideoIdsBounded | controllers/playlist.js:173-174 | Audio and video ids together never outnumber the entries. |
| PlaylistController.FirstWithId | controllers/playlist.js:188 | `find` returns a fetched record with that id, and `undefined` exactly when none has it. |
| PlaylistController.FoundIsTheOne | controllers/playlist.js:188 | With unique ids, `find` returns exactly the record with that id. |
| PlaylistController.FetchOrderIrrelevant | controllers/playlist.js:176-188 | The order in which the query returns records does not change any slot. |
| PlaylistController.ReferenceComparisonLosesRecords | controllers/playlist.js:188 | As written, `===` compares two ObjectId objects by reference, so every slot stays empty. Each audio entry whose record was fetched is lost, where comparing ids by value finds it. |
| PlaylistController.PlaylistContentOutcome | controllers/playlist.js:164-197 | Compares ids by value, the corrected comparison of line 188. Rejects exactly when the query fails or an entry is not audio. Otherwise one slot per entry, each holding the first fetched record with the entry's id. |
| PlaylistController.GetPlaylistContent | controllers/playlist.js:164-197 | The fill loop settles to `PlaylistContentOutcome`. |
| PlaylistController.MissingImportRejectsAll | controllers/playlist.js:179 | With the unbound `Audio` name every playlist's content rejects, though all-audio content would resolve with any answer. |
| PlaylistController.VideoEntryRejectsWholeContent | controllers/playlist.js:186-190 | One video entry makes the content of an otherwise resolvable playlist reject, where hydration leaves one hole. |
| PlaylistController.HydrateContent | controllers/playlist.js:186-190 | One slot per entry in content order. An audio slot holds its first fetched record, and any other slot is empty. |
| PlaylistController.HydrateAgreesOnAudioContent | controllers/playlist.js:164-197 | On all-audio content, hydration equals what the code resolves to. |
| PlaylistController.HydrateResolvesAgainstStore | controllers/playlist.js:176-190 | When the query answers the stored records of the audio ids, a slot is empty exactly for a dangling or non-audio entry. Otherwise it holds the stored record. |
| PlaylistController.GetOneNeverAnswers | controllers/playlist.js:31-41 | As written, `getOne` never emits a playlist and always ends with the generic error. |
| PlaylistController.GetOne | controllers/playlist.js:26-42 | A falsy id emits `INVALID_ID` first. A found playlist with a resolved query is answered with its hydrated content. Anything else ends in the error reply. |
| PlaylistValidation.ValidateCreate | validations/playlist.js:8-18 | Correct exactly for a truthy name. Otherwise the only error is `REQUIRED` on `name`. |
| PlaylistValidation.EveryWellFormed | validations/playlist.js:32-38 | Resolves true exactly when every item has a string `id` and a known `type`. Throws exactly when a `null` or `undefined` item is reached before any malformed item. |
| PlaylistValidation.AudioIds | validations/playlist.js:41 | Exactly the ids of the items whose type is audio. |
| PlaylistValidation.AudioIdsOne | validations/playlist.js:41 | One item contributes its id when its type is audio, and nothing otherwise. |
| PlaylistValidation.AudioIdsAppend | validations/playlist.js:41 | Collecting distributes over concatenation: ids come in item order, one per audio item, repeats included. |
| PlaylistValidation.FoundCountMatches | validations/playlist.js:43-44 | The query finds at most one record per id. It finds as many as there are ids exactly when the ids are distinct and all stored. |
| PlaylistValidation.ItemsErrors | validations/playlist.js:26-50 | At most one item error, chosen by the `if`/`else if` chain in source order. The existence check runs only on well-formed, non-empty arrays. |
| PlaylistValidation.ExistenceCheck | validations/playlist.js:41-46 | On well-formed items the check reports the mismatch error exactly when the audio ids are repeated or not all stored. |
| PlaylistValidation.ValidateIdAndItems | validations/playlist.js:20-56 | `UNKNOWN_PLAYLIST` on an invalid id, then the items error. As written, a count mismatch is reported as `INTERNAL_SERVER_ERROR`. |
| PlaylistValidation.MissingAudioReportedAsInternal | validations/playlist.js:43-49 | An item naming an audio that does not exist is reported as an internal error, where `INVALID_ITEMS` was meant. |
| PlaylistValidation.IntendedItemsErrors | validations/playlist.js:42-50 | With the outer result in scope, a missing or repeated audio gives `INVALID_ITEMS`. The internal error remains only for a failed query. |
| PlaylistValidation.ValidateUpdate | validations/playlist.js:58-72 | The errors are exactly, in push order: `UNKNOWN_PLAYLIST` on an invalid id, then `INVALID` on a truthy non-string name, then on a truthy non-string description. Correct exactly when that list is empty. |
| UserValidation.CreateUserErrors | validations/user.js:7-16 | The pushed errors, in push order: `REQUIRED` exactly for each falsy field, then `INVALID_EMAIL` exactly for a truthy invalid e-mail, then `WEAK_PASSWORD` exactly for a truthy password under 4 UTF-8 bytes. Empty exactly when every check passes, and at most three. |
| UserValidation.ValidateCreateUser | validations/user.js:4-22 | Throws exactly for a truthy non-string e-mail or password. Otherwise the verdict is `CreateUserErrors`, and it is correct exactly when that list is empty. |
| UserValidation.ValidateAuthenticate | validations/user.js:24-36 | The errors are exactly `REQUIRED` on `login` if it is falsy, then `REQUIRED` on `password` if it is falsy. Correct exactly when there are none. |
| UserValidation.ValidateRefreshToken | validations/user.js:38-48 | Correct exactly for a truthy token. Otherwise the only error is `REQUIRED` on `refreshToken`. |
| MediaValidation.MediaUploadErrors | validations/media.js:9-10 | At most one error, `UNKNOWN_FOLDER` on `folderId`. It is absent exactly for 'null' or a valid id. |
| MediaValidation.ValidateMediaUpload | validations/media.js:5-17 | The verdict is that of `MediaUploadErrors`. 'null' is rewritten to `null` in the payload, and any other payload is left unchanged. |
| UploadConfig.AcceptedByExtension | media-processing/multerConfig.js:62 | The extension pattern matches exactly the names that have a '.' and whose case-folded `getFileNameInfo` extension is listed. |
| UploadConfig.DotSuffixUnique | media-processing/multerConfig.js:62 | A name has one extension in the pattern's sense: a '.'-led suffix without other dots is unique. |
| UploadConfig.ExtensionListsPlain | config/index.js:38-41 | The listed audio and video extensions are lower case and hold no '.'. |
| UploadConfig.AudioFilter | media-processing/multerConfig.js:60-67 | Accepts exactly names with a listed audio extension. A rejection records 'Only audio files are allowed!' on the request. |
| UploadConfig.VideoFilter | media-processing/multerConfig.js:76-83 | Accepts exactly names with a listed video extension. A rejection records 'Only video files are allowed!' on the request. |
| UploadConfig.StoredFileNameRoundTrip | media-processing/multerConfig.js:44-50 | Reading the stored name back gives the audio id as base and the MIME type's extension. |
| UploadConfig.MakeAudioDirs | media-processing/multerConfig.js:23-33 | Creates the audio directory and each configured sub-directory, and nothing else. |
| UploadConfig.Destination | media-processing/multerConfig.js:15-43 | As written: a free first directory is created with its sub-directories and its id recorded. A taken one keeps the loop going through every generated id, and nothing changes. |
| UploadConfig.FirstFree | media-processing/multerConfig.js:20-39 | The first generated id whose directory is free. Every earlier one is taken. |
| UploadConfig.IntendedPlacement | media-processing/multerConfig.js:17-39 | Places an upload exactly when some generated id's directory is free, in the first such directory. |
| UploadConfig.IntendedDestination | media-processing/multerConfig.js:15-43 | The corrected loop creates the intended placement's directories and records its id, or changes nothing. |
| UploadConfig.TakenFirstDirNeverPlaced | media-processing/multerConfig.js:19-36 | A taken first directory is never left as written, while the intended loop takes the next free id. |
| UploadConfig.FreeFirstDirAgrees | media-processing/multerConfig.js:19-27 | When the first directory is free, the code and the corrected loop agree. |

## Left out

- The database, the sockets, the logger and the disk are left out. Their answers are inputs, and emitted messages are sequences of values.
- Promise concurrency is left out: `Promise.all`, interleaved handlers, and the read-then-update race in `addItems` and `removeContent`. Each handler runs to its end in one step.
- `getFolderSize` rounds with `_.round` for its formatted text. The model keeps the unit and the original size, and leaves out the rounded number.
- Some names that the validators use are missing from the source: `helpers/index.js` exports no `isValidObjectId`, `utils/errors.js` has no `ERRORS.PLAYLISTS` or `ERRORS.FIELDS.INVALID`, and `config/index.js` has no `mediaConfig.media.types` or `mediaConfig.media.type`. As written, `validateIdAndItems` and `validateUpdate` therefore throw a `TypeError` at their first check, and `validateMediaUpload` throws for every `folderId` except 'null'. The model assumes these names are present: id validity and the media types are parameters, and the error codes are values of `ErrorCode`.
- PlaylistController.PlaylistStore.AddItems and PlaylistController.PlaylistStore.RemoveContent: items given as a falsy non-null value (`""`, `0`, `false`) or as a string are not modelled. Those inputs can pass `.length` yet fail or behave differently later. In `removeContent`, string items reach `String.prototype.includes` and keep every entry, and items `0` throw on non-empty content.
- FolderController.EmplacementSegments: a `folderId` whose text is empty but which is truthy (an empty array) is not modelled separately.
- FolderController.FolderStore.CreateFolder: `rmdir` is modelled as removing the path. Its own failure on a missing or non-empty directory is ignored, as the code ignores it.
- UploadConfig.Destination: the ObjectIds the loop generates are a finite list, so a loop that never ends is reported as `Diverged` once the list runs out.
- UploadConfig.MakeAudioDirs: failures of `mkdirSync` are not modelled. These are a missing storage directory, an existing sub-directory and permissions.
- The file size limit (`maxSize`, 900000000 bytes) is enforced by the multer library. It is kept as a constant and not modelled.
- `glob.sync` and `du` failures are not modelled. They are rethrown and end in the generic replies above.
- ObjectIds are compared as strings, and the difference between an ObjectId object and its text is ignored. There are two exceptions: the reference comparison in `getPlaylistContent` (see Findings), and the `typeof name` test in `findStoragePath`, where a non-string name gets the root.
- FsHelpers.GetFolderNumberStats: a step of the walk whose directory check throws is modelled as a rejection. In the code, that step runs in an `async` promise executor, so the throw is lost and the step never settles. `forAsync` then waits forever and `getDetails` never replies (helpers/fs.js:44-52 and 218-220). The model has no never-settling outcome. The same holds for `FsHelpers.EntryClass`.
- The playlist `getAll` and `rename` handlers, the `error500` helper and `generateId` are not part of this model, nor are the audio, user and stream controllers.
- UploadConfig.AudioFilter: case folding is ASCII only. That is all the `i` flag changes for these all-ASCII patterns.

## Findings

| source | as written | input that shows it | evidently intended | confidence | as-written member | corrected member |
|---|---|---|---|---|---|---|
| controllers/playlist.js:186-190 | Every non-audio entry reads `values[1]`, which `Promise.all` of one query never provides, so the whole content rejects | content `[audio a1, video v1]` with `a1` fetched | One slot per entry, empty for entries it cannot resolve | not executed | PlaylistController.VideoEntryRejectsWholeContent | PlaylistController.HydrateContent |
| controllers/playlist.js:179 | `Audio` is never imported, so `Audio.find` throws a `ReferenceError` and the content never resolves | any playlist, even one with empty content | The audio model is imported and queried | not executed | PlaylistController.MissingImportRejectsAll | PlaylistController.GetPlaylistContent |
| controllers/playlist.js:34 | `getPlaylistContent` is called unqualified but is only defined on `exports`, so the callback throws and every request ends with "Error while getting a playlist" | any found playlist | The playlist is answered with its content | not executed | PlaylistController.GetOneNeverAnswers | PlaylistController.GetOne |
| validations/playlist.js:43-45 | The inner `const result` (an array) shadows the verdict, so `result.errors.push` throws and a missing audio is reported as `INTERNAL_SERVER_ERROR` | items `[{id: "a1", type: "audio"}]` with no stored audio `a1` | `INVALID_ITEMS` on a count mismatch | not executed | PlaylistValidation.MissingAudioReportedAsInternal | PlaylistValidation.IntendedItemsErrors |
| media-processing/multerConfig.js:19-36 | `dir` is computed once from the first id, and regenerating the id never changes it, so the do-while never ends when that directory exists | storage `s`, ids `x` then `y`, with `s/x` existing and `s/y` free | The directory is recomputed from each new id | not executed | UploadConfig.TakenFirstDirNeverPlaced | UploadConfig.IntendedDestination |
| controllers/playlist.js:76-79 | The new document is built from the name and the content only. The schema requires `userId`, so `save` refuses every playlist | any `create` request, e.g. name "Mix" | The owner's id is set, and the playlist is stored | not executed | PlaylistController.PlaylistStore.CreateAsWritten | PlaylistController.PlaylistStore.Create |
| controllers/playlist.js:140 | `includes` compares by identity, and request items are freshly parsed objects, so nothing is ever removed. The `Set` at line 109 likewise drops no stored duplicate | stored `[a1 (ref 0), a2 (ref 1)]`, items `[a1 (ref 2)]` | Entries are removed by id | not executed | PlaylistController.RemoveSentBackCopy | PlaylistController.RemainingByIdKeeps |
| controllers/playlist.js:188 | `a._id === item.id` compares two ObjectId objects by reference, so `find` never succeeds and every audio slot is `undefined` | content `[audio a1]` with `a1` fetched | The ids are compared by value | not executed | PlaylistController.ReferenceComparisonLosesRecords | PlaylistController.HydrateContent |

=== FILE: common.dfy ===
/**
 * Values shared by every part of the media-library backend model: optional
 * values, settled promises, the JavaScript values that arrive in request
 * payloads, media types and the application's error catalogue.
 */
module Common {

  datatype Option<T> = None | Some(value: T)

  /** The outcome of a synchronous call: a returned value, or a thrown `Error(message)`. */
  datatype Completion<T> = Normal(value: T) | Threw(message: string)

  /** The outcome of a promise: resolved with a value, or rejected. */
  datatype Settled<T> = Resolved(value: T) | Rejected

  /** What a database lookup by id yields: the record, `null`, or a rejection. */
  datatype Lookup<T> = Found(record: T) | NotFound | LookupFailed

  /**
   * A JavaScript value as it arrives in a socket or HTTP payload.
   * Numbers are integers (NaN and fractions are not modelled).
   */
  datatype Value =
    | Undefined
    | Null
    | Bool(b: bool)
    | Num(n: int)
    | Str(s: string)
    | Arr(elems: seq<Value>)
    | Obj(fields: map<string, Value>)

  /** JavaScript truthiness: `undefined`, `null`, `false`, `0` and `''` are falsy. */
  predicate Truthy(v: Value)
  {
    match v
    case Undefined => false
    case Null => false
    case Bool(b) => b
    case Num(n) => n != 0
    case Str(s) => s != ""
    case Arr(_) => true
    case Obj(_) => true
  }

  /** Property read `o[key]`: a missing key reads as `undefined`. */
  function Get(o: map<string, Value>, key: string): (v: Value)
    ensures key !in o ==> v == Undefined
    ensures key in o ==> v == o[key]
  {
    if key in o then o[key] else Undefined
  }

  /** The decimal digits of `n`. */
  function NatText(n: nat): (s: string)
    ensures |s| >= 1
    decreases n
  {
    if n < 10 then ["0123456789"[n]] else NatText(n / 10) + ["0123456789"[n % 10]]
  }

  /**
   * JavaScript string conversion (`${v}`) of a payload value: arrays join their
   * elements with ',' (`null` and `undefined` elements give ''), plain objects
   * give "[object Object]".
   */
  function Text(v: Value): string
    decreases v, 1
  {
    match v
    case Undefined => "undefined"
    case Null => "null"
    case Bool(b) => if b then "true" else "false"
    case Num(n) => if n < 0 then "-" + NatText(-n) else NatText(n)
    case Str(s) => s
    case Arr(elems) => ElemsText(v, elems)
    case Obj(_) => "[object Object]"
  }

  /** The elements of the array `whole` (a suffix `elems` of them), converted and joined with ','. */
  function ElemsText(whole: Value, elems: seq<Value>): string
    requires forall e :: e in elems ==> e < whole
    decreases whole, 0, |elems|
  {
    if |elems| == 0 then ""
    else
      assert elems[0] in elems;
      assert forall e :: e in elems[1..] ==> e in elems;
      var head := if elems[0].Undefined? || elems[0].Null? then "" else Text(elems[0]);
      if |elems| == 1 then head else head + "," + ElemsText(whole, elems[1..])
  }

  /** No element occurs twice. */
  predicate Distinct<E(==)>(s: seq<E>)
  {
    forall i, j :: 0 <= i < j < |s| ==> s[i] != s[j]
  }

  /** A list with one more entry at the end has no repeats exactly when the list had none and lacked the entry. */
  lemma DistinctSnoc<E>(s: seq<E>, x: E)
    ensures Distinct(s + [x]) <==> Distinct(s) && x !in s
  {
    var t := s + [x];
    if Distinct(t) {
      assert forall i, j :: 0 <= i < j < |s| ==> s[i] == t[i] && s[j] == t[j];
      assert forall i :: 0 <= i < |s| ==> s[i] == t[i] && t[i] != t[|s|];
    }
  }

  /** A text that is present and non-empty (the truthy strings). */
  predicate Filled(t: Option<string>)
  {
    t.Some? && t.value != ""
  }

  /** The media types the application distinguishes (`MEDIA_TYPE`). */
  datatype MediaType = Audio | Video | Other(name: string)

  /** The error catalogue `ERRORS` of utils/errors.js, plus the names the validators use. */
  datatype ErrorCode =
    | BadCredentials
    | BadRefreshToken
    | EmailAlreadyExists
    | IncorrectOldPassword
    | Required
    | InvalidEmail
    | WeakPassword
    | NoDataSent
    | InternalServerError
    | NameAlreadyExists
    | UnknownFolder
    | UnknownParentFolder
      // referenced by validations/playlist.js but absent from the catalogue
    | Invalid
    | UnknownPlaylist
    | InvalidItemsStructure
    | EmptyItems
    | InvalidItems
  {
    /** Whether the catalogue in utils/errors.js defines this entry. */
    predicate InCatalogue()
    {
      !(Invalid? || UnknownPlaylist? || InvalidItemsStructure? || EmptyItems? || InvalidItems?)
    }

    function Code(): string
      requires InCatalogue()
    {
      match this
      case BadCredentials => "auth/bad-credentials"
      case BadRefreshToken => "auth/bad-refresh-token"
      case EmailAlreadyExists => "users/email-already-exists"
      case IncorrectOldPassword => "users/old-password-incorrect"
      case Required => "fields/required"
      case InvalidEmail => "fields/invalid-email"
      case WeakPassword => "fields/password_weak"
      case NoDataSent => "server/no-data-sent"
      case InternalServerError => "server/internal-server-error"
      case NameAlreadyExists => "folders/name-already-exists"
      case UnknownFolder => "folders/unknown-folder"
      case UnknownParentFolder => "folders/unknown-parent-folder"
    }

    function Message(): string
      requires InCatalogue()
    {
      match this
      case BadCredentials => "Incorrect username and/or password"
      case BadRefreshToken => "Incorrect refresh token sent"
      case EmailAlreadyExists => "Email already exists"
      case IncorrectOldPassword => "Incorrect old password"
      case Required => "This field is required"
      case InvalidEmail => "Email is invalid"
      case WeakPassword => "Password is too weak. Please provide a one with length of at least 4"
      case NoDataSent => "No data found!"
      case InternalServerError => "Internal server error"
      case NameAlreadyExists => "The name specified is already in use"
      case UnknownFolder => "Unknown folder id"
      case UnknownParentFolder => "Unknown parent folder id"
    }
  }

  /** An error object `{...ERRORS.X, field}` as the validators and handlers push it. */
  datatype ErrorObj = ErrorObj(code: ErrorCode, field: Option<string>)

  /** `{...ERRORS.X, field: f}` */
  function FieldError(code: ErrorCode, f: string): ErrorObj
  {
    ErrorObj(code, Some(f))
  }

  /** `{...ERRORS.X}` */
  function PlainError(code: ErrorCode): ErrorObj
  {
    ErrorObj(code, None)
  }

  /** `if (bad) result.errors.push(e)`: what one guarded push adds to the list. */
  function Pushed(bad: bool, e: ErrorObj): (r: seq<ErrorObj>)
    ensures |r| <= 1
    ensures e in r <==> bad
    ensures forall x :: x in r ==> x == e
  {
    if bad then [e] else []
  }

  /** The `{isCorrect, errors}` object every validator returns. */
  datatype Verdict = Verdict(isCorrect: bool, errors: seq<ErrorObj>)

  /** The common tail of every validator: correct exactly when nothing was pushed. */
  function Conclude(errors: seq<ErrorObj>): (r: Verdict)
    ensures r.isCorrect <==> errors == []
    ensures r.errors == errors
  {
    if |errors| == 0 then Verdict(true, []) else Verdict(false, errors)
  }
}

=== FILE: folder.dfy ===
/**
 * The folder controller of controllers/folder.js. A folder is a database row
 * and a directory named after the row's id inside its parent's directory, so
 * the store below holds both: the rows by id and the set of directory paths.
 * Database answers (`findById`, `find`, `save`), `mkdir`, `du`, `lstat` and
 * the classification of a directory walk are inputs.
 */
module FolderController {
  import opened Common
  import opened Strings
  import opened Helpers
  import opened FsHelpers

  datatype FolderRecord = FolderRecord(
    id: string,
    name: Value,
    description: Value,
    userId: string,
    parentFolderId: Option<string>)

  /**
   * What a folder handler emits: `{status: true, data}`, `{status: false,
   * errors}` with errors built by `getErrors`, or the single `REQUIRED` error
   * on one field.
   */
  datatype Reply<D> = Ok(data: D) | Refused(errors: seq<Brief>) | FieldRequired(field: string)

  /** The "unknown" error of `checkFolder`, which depends only on `isParent`. */
  function Unknown(isParent: bool): (c: ErrorCode)
    ensures c.InCatalogue()
  {
    if isParent then UnknownParentFolder else UnknownFolder
  }

  /**
   * `checkFolder(folderId, isParent)`, given whether the id is well formed and
   * what looking it up yields: a malformed id and a missing folder get the same
   * "unknown" error, a failed lookup an internal error.
   */
  function CheckFolder(isParent: bool, validId: bool, lookup: Lookup<FolderRecord>): (r: Reply<FolderRecord>)
    ensures r.Ok? <==> validId && lookup.Found?
    ensures r.Ok? ==> r.data == lookup.record
    ensures !r.Ok? ==> r.Refused? && |r.errors| == 1
    ensures r.Refused? ==>
              r.errors == GetErrors([if validId && lookup.LookupFailed? then InternalServerError else Unknown(isParent)]).errors
  {
    if !validId then Refused(GetErrors([Unknown(isParent)]).errors)
    else
      match lookup
      case Found(f) => Ok(f)
      case NotFound => Refused(GetErrors([Unknown(isParent)]).errors)
      case LookupFailed => Refused(GetErrors([InternalServerError]).errors)
  }

  /** A malformed id is refused whatever the database holds, exactly like a missing folder. */
  lemma MalformedIdSkipsLookup(isParent: bool, lookup: Lookup<FolderRecord>)
    ensures CheckFolder(isParent, false, lookup) == CheckFolder(isParent, true, NotFound)
    ensures CheckFolder(isParent, false, lookup).errors[0].code
            == (if isParent then "folders/unknown-parent-folder" else "folders/unknown-folder")
  {
  }

  /** `data` is an object with an own `folderId` property. */
  predicate HasOwnFolderId(data: Value)
  {
    data.Obj? && "folderId" in data.fields
  }

  /** The `folder` field of a content listing: a stored folder, or `{id: null}` for the root. */
  datatype FolderRef = Located(record: FolderRecord) | RootFolder

  datatype FolderContent = FolderContent(folders: seq<FolderRecord>, audios: seq<Value>, folder: FolderRef)

  /**
   * `getFolderContent`: refuse a payload without a `folderId` property; check
   * a truthy folder id and forward a failed check; then answer the two child
   * queries (`listing`, `None` when one of them fails).
   */
  function GetFolderContent(data: Value, validId: bool, lookup: Lookup<FolderRecord>,
                            listing: Option<(seq<FolderRecord>, seq<Value>)>): (r: Reply<FolderContent>)
    ensures r.FieldRequired? <==> !HasOwnFolderId(data)
    ensures r.FieldRequired? ==> r.field == "folderId"
    ensures HasOwnFolderId(data) && Truthy(data.fields["folderId"]) && !CheckFolder(false, validId, lookup).Ok? ==>
              r == Refused(CheckFolder(false, validId, lookup).errors)
    ensures r.Ok? <==> HasOwnFolderId(data) && listing.Some?
                       && (Truthy(data.fields["folderId"]) ==> CheckFolder(false, validId, lookup).Ok?)
    ensures r.Ok? ==> r.data.folders == listing.value.0 && r.data.audios == listing.value.1
    ensures r.Ok? ==> r.data.folder == if Truthy(data.fields["folderId"]) then Located(lookup.record) else RootFolder
    ensures r.Refused? && (!Truthy(data.fields["folderId"]) || CheckFolder(false, validId, lookup).Ok?) ==>
              r.errors == GetErrors([InternalServerError]).errors
  {
    if !HasOwnFolderId(data) then FieldRequired("folderId")
    else
      var folderId := data.fields["folderId"];
      var check := CheckFolder(false, validId, lookup);
      if Truthy(folderId) && !check.Ok? then Refused(check.errors)
      else if listing.None? then Refused(GetErrors([InternalServerError]).errors)
      else Ok(FolderContent(listing.value.0, listing.value.1, if Truthy(folderId) then Located(check.data) else RootFolder))
  }

  /** A null (or otherwise falsy) folder id lists the root without consulting the folder lookup. */
  lemma RootListingIgnoresLookup(data: Value, v1: bool, l1: Lookup<FolderRecord>, v2: bool, l2: Lookup<FolderRecord>,
                                 listing: Option<(seq<FolderRecord>, seq<Value>)>)
    requires HasOwnFolderId(data) && !Truthy(data.fields["folderId"])
    ensures GetFolderContent(data, v1, l1, listing) == GetFolderContent(data, v2, l2, listing)
    ensures listing.Some? ==> GetFolderContent(data, v1, l1, listing).data.folder == RootFolder
  {
  }

  /** `data.parentFolderId || null` */
  function ParentOf(parent: Option<string>): (r: Option<string>)
    ensures r.Some? <==> Filled(parent)
    ensures r.Some? ==> r == parent
  {
    if Filled(parent) then parent else None
  }

  /** The row `createFolder` builds; the description defaults to ''. */
  function NewRecord(newId: string, name: Value, description: Value, userId: string, parent: Option<string>): FolderRecord
  {
    FolderRecord(newId, name, if Truthy(description) then description else Str(""), userId, ParentOf(parent))
  }

  /**
   * The directory of a new folder: the resolved parent path followed by the
   * new id; when no directory matches the parent, the path begins with the
   * text "undefined". Throws as `getAbsolutePath` does.
   */
  function NewFolderPath(env: Env, glob: Glob, parent: Option<string>, userId: string, newId: string): (r: Completion<string>)
    ensures r.Threw? <==> !Filled(parent) && userId == ""
    ensures r.Normal? ==> EndsWith(r.value, newId)
    ensures r.Normal? ==>
              var abs := GetAbsolutePath(env, ParentOf(parent), Some(userId), glob).value;
              && (abs.Some? ==> r.value == abs.value + newId && EndsWithSlash(abs.value))
              && (abs.None? ==> r.value == "undefined" + newId)
    ensures r.Normal? && GetAbsolutePath(env, ParentOf(parent), Some(userId), glob).value.Some? ==>
              GetUserStoragePath(env, Some(userId)) + "/" <= r.value
  {
    match GetAbsolutePath(env, ParentOf(parent), Some(userId), glob)
    case Threw(m) => Threw(m)
    case Normal(abs) => Normal((if abs.Some? then abs.value else "undefined") + newId)
  }

  /** How the handler of an event ended: normally, or with its promise rejected. */
  datatype HandlerEnd = Finished | Aborted

  /** The folder rows, the directories on disk and the replies sent on the socket. */
  class FolderStore {
    var records: map<string, FolderRecord>
    var dirs: set<string>
    var sent: seq<Reply<Option<FolderRecord>>>

    constructor ()
      ensures records == map[] && dirs == {} && sent == []
    {
      records := map[];
      dirs := {};
      sent := [];
    }

    /**
     * `createFolder`: check a given parent; build the row; resolve the path;
     * save the row, then create the directory. On a failure of either step the
     * row's deletion is attempted (its own failure is swallowed, so a saved row
     * stays when it fails) and the directory removed, and the reply says whether
     * the name was a duplicate (database code 11000). When the path cannot be
     * resolved, removing the undefined path throws inside the error handler
     * and nothing is sent.
     */
    method CreateFolder(env: Env, glob: Glob, parent: Option<string>, name: Value, description: Value,
                        userId: string, newId: string, validParent: bool, parentLookup: Lookup<FolderRecord>,
                        saveError: Option<int>, mkdirOk: bool, deleteOk: bool) returns (end: HandlerEnd)
      requires newId !in records
      modifies this
      ensures Filled(parent) && !CheckFolder(true, validParent, parentLookup).Ok? ==>
                && end == Finished && records == old(records) && dirs == old(dirs)
                && sent == old(sent) + [Refused(CheckFolder(true, validParent, parentLookup).errors)]
      ensures (!Filled(parent) || CheckFolder(true, validParent, parentLookup).Ok?) ==>
                var path := NewFolderPath(env, glob, parent, userId, newId);
                var folder := NewRecord(newId, name, description, userId, parent);
                && (path.Threw? ==> end == Aborted && records == old(records) && dirs == old(dirs) && sent == old(sent))
                && (path.Normal? && saveError.None? && mkdirOk ==>
                      && end == Finished
                      && records == old(records)[newId := folder]
                      && dirs == old(dirs) + {path.value}
                      && sent == old(sent) + [Ok(Some(folder))])
                && (path.Normal? && saveError.Some? ==> records == old(records) && newId !in records)
                && (path.Normal? && saveError.None? && !mkdirOk ==>
                      records == if deleteOk then old(records) else old(records)[newId := folder])
                && (path.Normal? && (saveError.Some? || !mkdirOk) ==>
                      && end == Finished
                      && dirs == old(dirs) - {path.value}
                      && sent == old(sent)
                         + [Refused(GetErrors([if saveError == Some(11000) then NameAlreadyExists else InternalServerError]).errors)])
    {
      var parentFolderId := ParentOf(parent);
      if parentFolderId.Some? {
        var check := CheckFolder(true, validParent, parentLookup);
        if !check.Ok? {
          sent := sent + [Refused(check.errors)];
          return Finished;
        }
      }
      var folder := NewRecord(newId, name, description, userId, parent);
      var path := NewFolderPath(env, glob, parent, userId, newId);
      if path.Threw? {
        return Aborted;   // `fs.rmdir(undefined)` throws inside the catch block
      }
      var failed := false;
      var code := InternalServerError;
      if saveError.Some? {
        failed := true;
        if saveError.value == 11000 {
          code := NameAlreadyExists;
        }
      } else {
        records := records[newId := folder];
        if !mkdirOk {
          failed := true;
        }
      }
      if failed {
        if deleteOk {
          records := records - {newId};   // `Folder.deleteOne`, not awaited, its failure swallowed
        }
        dirs := dirs - {path.value};
        sent := sent + [Refused(GetErrors([code]).errors)];
      } else {
        dirs := dirs + {path.value};
        sent := sent + [Ok(Some(folder))];
      }
      return Finished;
    }

    /**
     * `rename`: a falsy name is refused before any update; otherwise the row
     * gets the new name and the reply carries the row as it was before the
     * update (`null` when there is no such row).
     */
    method Rename(id: string, name: Value, updateFails: bool)
      modifies this
      ensures !Truthy(name) ==> records == old(records) && sent == old(sent) + [FieldRequired("name")]
      ensures Truthy(name) && updateFails ==>
                records == old(records) && sent == old(sent) + [Refused(GetErrors([InternalServerError]).errors)]
      ensures Truthy(name) && !updateFails && id in old(records) ==>
                && records == old(records)[id := old(records)[id].(name := name)]
                && sent == old(sent) + [Ok(Some(old(records)[id]))]
      ensures Truthy(name) && !updateFails && id !in old(records) ==>
                records == old(records) && sent == old(sent) + [Ok(None)]
      ensures dirs == old(dirs)
    {
      if !Truthy(name) {
        sent := sent + [FieldRequired("name")];
        return;
      }
      if updateFails {
        sent := sent + [Refused(GetErrors([InternalServerError]).errors)];
        return;
      }
      if id in records {
        var before := records[id];
        records := records[id := before.(name := name)];
        sent := sent + [Ok(Some(before))];
      } else {
        sent := sent + [Ok(None)];
      }
    }
  }

  /** The detail record of `getDetails`, the folder row spread last. */
  datatype Details = Details(size: FolderSize, lastAccessed: int, lastModified: int, numberOf: NumberStats, folder: FolderRecord)

  /** The guard of `getDetails`: an object whose `folderId` is truthy. */
  predicate DetailsRequestValid(data: Value)
  {
    data.Obj? && Truthy(Get(data.fields, "folderId"))
  }

  /**
   * `getDetails`, given what the four parallel steps yield for the folder's
   * path: the row lookup, `du` (`None` when it fails), `lstat` (access and
   * modification times, `None` when it fails) and the classified walk. A
   * missing row makes `folder.toJSON()` throw, so it fails like the others.
   */
  method GetDetails(data: Value, lookup: Lookup<FolderRecord>, du: Option<nat>, lstat: Option<(int, int)>,
                    walk: seq<EntryClass>) returns (r: Reply<Details>)
    ensures r.FieldRequired? <==> !DetailsRequestValid(data)
    ensures r.FieldRequired? ==> r.field == "folderId"
    ensures r.Ok? <==> DetailsRequestValid(data) && lookup.Found? && du.Some? && lstat.Some?
    ensures r.Refused? ==> r.errors == GetErrors([InternalServerError]).errors
    ensures r.Ok? ==>
              && r.data.folder == lookup.record
              && r.data.size == GetFolderSize(du.value)
              && r.data.lastAccessed == lstat.value.0 && r.data.lastModified == lstat.value.1
              && r.data.numberOf.folders == CountWhere(walk, IsFolder)
              && r.data.numberOf.audios == CountWhere(walk, IsAudio)
              && r.data.numberOf.videos == CountWhere(walk, IsVideo)
              && r.data.numberOf.files == r.data.numberOf.audios + r.data.numberOf.videos
  {
    if !DetailsRequestValid(data) {
      return FieldRequired("folderId");
    }
    var numberOf := GetFolderNumberStats(walk);
    if !lookup.Found? || du.None? || lstat.None? {
      return Refused(GetErrors([InternalServerError]).errors);
    }
    r := Ok(Details(GetFolderSize(du.value), lstat.value.0, lstat.value.1, numberOf, lookup.record));
  }

  /** `response.find(item => `${item._id}` === id)` */
  function FirstFolder(response: seq<FolderRecord>, id: string): (r: Option<FolderRecord>)
    ensures r.Some? ==> r.value in response && r.value.id == id
    ensures r.None? <==> forall f :: f in response ==> f.id != id
    decreases |response|
  {
    if |response| == 0 then None
    else if response[0].id == id then Some(response[0])
    else
      assert forall f :: f in response ==> f == response[0] || f in response[1..];
      FirstFolder(response[1..], id)
  }

  /** `path.split('/').filter(Boolean)`: the non-empty segments of a path. */
  function SegmentsOf(path: string): (r: seq<string>)
    ensures forall i :: 0 <= i < |r| ==> r[i] != "" && '/' !in r[i]
  {
    var parts := Split(path, '/');
    var r := NonEmptyParts(parts);
    assert forall i :: 0 <= i < |r| ==> r[i] in parts;
    r
  }

  /** Segments of the ids of nested folders, joined by '/' and closed by '/', are those ids. */
  lemma SegmentsOfJoin(ids: seq<string>)
    requires |ids| >= 1
    requires forall i :: 0 <= i < |ids| ==> ids[i] != "" && '/' !in ids[i]
    ensures SegmentsOf(JoinWith(ids, '/') + "/") == ids
  {
    var padded := ids + [""];
    assert padded[..|padded| - 1] == ids;
    JoinWithLast(padded, '/');
    assert JoinWith(padded, '/') == JoinWith(ids, '/') + "/";
    assert forall i :: 0 <= i < |padded| ==> '/' !in padded[i] by {
      forall i | 0 <= i < |padded|
        ensures '/' !in padded[i]
      {
        if i < |ids| {
          assert padded[i] == ids[i];
        }
      }
    }
    SplitJoin(padded, '/');
    NonEmptyPartsKeepsAll(ids);
    assert NonEmptyParts(padded) == ids;
  }


  /**
   * The folder ids along the path of a folder: its resolved path with the
   * user's root (followed by '/') removed, split on '/', empty segments
   * dropped. `None` when a step throws: no user, or no directory matching
   * the id.
   */
  function EmplacementSegments(env: Env, userId: Option<string>, glob: Glob, folderId: Value): Option<seq<string>>
  {
    var userBasePath := GetAbsolutePath(env, None, userId, glob);
    var abs := GetAbsolutePath(env, Some(Text(folderId)), userId, glob);
    if userBasePath.Threw? || abs.Threw? || abs.value.None? then None
    else Some(SegmentsOf(ReplaceFirst(abs.value.value, userBasePath.value.value, "")))
  }

  /**
   * `getEmplacement`: the folders from the root down to the given one, one
   * entry per path segment, in path order, each the fetched row with that id
   * (or nothing). A falsy folder id gives the empty path; a failing step or
   * batch query (`response` is `None`) gives an internal error.
   */
  function GetEmplacement(data: Value, env: Env, userId: Option<string>, glob: Glob,
                          response: Option<seq<FolderRecord>>): Reply<seq<Option<FolderRecord>>>
  {
    if !HasOwnFolderId(data) then FieldRequired("folderId")
    else
      var folderId := data.fields["folderId"];
      if !Truthy(folderId) then Ok([])
      else
        var segments := EmplacementSegments(env, userId, glob, folderId);
        if segments.None? || response.None? then Refused(GetErrors([InternalServerError]).errors)
        else
          Ok(FindEach(response.value, segments.value))
  }

  /** `ids.map(f => response.find(...))`: one lookup per id, in order. */
  function FindEach(response: seq<FolderRecord>, ids: seq<string>): (r: seq<Option<FolderRecord>>)
    ensures |r| == |ids|
    ensures forall i :: 0 <= i < |ids| ==> r[i] == FirstFolder(response, ids[i])
  {
    seq(|ids|, i requires 0 <= i < |ids| => FirstFolder(response, ids[i]))
  }

  /**
   * What `getEmplacement` replies: `REQUIRED` exactly without an own
   * `folderId`; the empty path for a falsy one; otherwise the path exactly
   * when both paths resolve and the query answers, with one `find` per
   * segment in path order. Every failure is the internal error.
   */
  lemma GetEmplacementReplies(data: Value, env: Env, userId: Option<string>, glob: Glob,
                              response: Option<seq<FolderRecord>>)
    ensures var r := GetEmplacement(data, env, userId, glob, response);
            && (r.FieldRequired? <==> !HasOwnFolderId(data))
            && (r.FieldRequired? ==> r.field == "folderId")
            && (r.Refused? ==> r.errors == GetErrors([InternalServerError]).errors)
    ensures HasOwnFolderId(data) && !Truthy(data.fields["folderId"]) ==>
              GetEmplacement(data, env, userId, glob, response) == Ok([])
    ensures HasOwnFolderId(data) && Truthy(data.fields["folderId"]) ==>
              var r := GetEmplacement(data, env, userId, glob, response);
              var segments := EmplacementSegments(env, userId, glob, data.fields["folderId"]);
              && (r.Ok? <==> segments.Some? && response.Some?)
              && (r.Ok? ==> |r.data| == |segments.value|
                            && forall i :: 0 <= i < |r.data| ==> r.data[i] == FirstFolder(response.value, segments.value[i]))
  {
  }

  predicate UniqueFolderIds(response: seq<FolderRecord>)
  {
    forall i, j :: 0 <= i < j < |response| ==> response[i].id != response[j].id
  }

  /** With unique ids, the row found for an id is the one holding it. */
  lemma FoundFolderIsTheOne(response: seq<FolderRecord>, f: FolderRecord)
    requires UniqueFolderIds(response) && f in response
    ensures FirstFolder(response, f.id) == Some(f)
  {
    var r := FirstFolder(response, f.id);
    var i :| 0 <= i < |response| && response[i] == f;
    var j :| 0 <= j < |response| && response[j] == r.value;
    assert i == j;
  }

  /** The order in which the batch query returns the rows does not change the path. */
  lemma EmplacementOrderIrrelevant(data: Value, env: Env, userId: Option<string>, glob: Glob,
                                   a: seq<FolderRecord>, b: seq<FolderRecord>)
    requires UniqueFolderIds(a) && UniqueFolderIds(b)
    requires forall f :: f in a <==> f in b
    ensures GetEmplacement(data, env, userId, glob, Some(a)) == GetEmplacement(data, env, userId, glob, Some(b))
  {
    var ra := GetEmplacement(data, env, userId, glob, Some(a));
    var rb := GetEmplacement(data, env, userId, glob, Some(b));
    if ra.Ok? && HasOwnFolderId(data) && Truthy(data.fields["folderId"]) {
      var segments := EmplacementSegments(env, userId, glob, data.fields["folderId"]).value;
      forall i | 0 <= i < |segments|
        ensures FirstFolder(a, segments[i]) == FirstFolder(b, segments[i])
      {
        if FirstFolder(a, segments[i]).Some? {
          FoundFolderIsTheOne(b, FirstFolder(a, segments[i]).value);
        }
      }
      assert ra.data == rb.data;
    }
  }

  /**
   * The breadcrumb of a nested folder: when the directory matched for the
   * folder id is the chain of folder ids `ids` joined with '/', the segments
   * are exactly `ids`, from the root down.
   */
  lemma NestedFolderSegments(env: Env, userId: Option<string>, glob: Glob, folderId: Value, ids: seq<string>)
    requires Filled(userId) && Text(folderId) != ""
    requires |ids| >= 1
    requires forall i :: 0 <= i < |ids| ==> ids[i] != "" && '/' !in ids[i]
    requires var matches := glob("**/*" + Text(folderId) + "*", GetUserStoragePath(env, userId));
             |matches| >= 1 && matches[0] == JoinWith(ids, '/')
    ensures EmplacementSegments(env, userId, glob, folderId) == Some(ids)
  {
    var base := GetUserStoragePath(env, userId) + "/";
    var m := JoinWith(ids, '/');
    JoinWithEnd(ids, '/');
    var abs := base + (m + "/");
    assert GetAbsolutePath(env, Some(Text(folderId)), userId, glob) == Normal(Some(abs));
    assert GetAbsolutePath(env, None, userId, glob) == Normal(Some(base));
    ReplacePrefix(abs, base);
    assert abs[|base|..] == m + "/";
    SegmentsOfJoin(ids);
  }
}

=== FILE: fs_helpers.dfy ===
/**
 * The storage-path and statistics helpers of helpers/fs.js. The file system
 * is not modelled directly: `glob.sync` is a function from a pattern and a
 * working directory to its matches, `du` is the byte count it reports, and
 * the per-entry classification of a directory walk (directory, media file
 * with or without a video stream, other file) is an input.
 */
module FsHelpers {
  import opened Common
  import opened Strings

  /** `process.cwd()` and `process.env.USERS_STORAGE_DIR`. */
  datatype Env = Env(cwd: string, usersStorageDir: string)

  /** `glob.sync(pattern, {cwd})` as a function of the pattern and the directory. */
  type Glob = (string, string) -> seq<string>

  /** The directory that holds every user's storage root. */
  function StorageRoot(env: Env): string
  {
    env.cwd + "/" + env.usersStorageDir
  }

  /** `getUserStoragePath(id)`: the storage root followed by the id, or by '' for a falsy id. */
  function GetUserStoragePath(env: Env, id: Option<string>): (r: string)
    ensures StorageRoot(env) <= r
    ensures r[|StorageRoot(env)|..] == if Filled(id) then id.value else ""
  {
    StorageRoot(env) + (if Filled(id) then id.value else "")
  }

  /** Two different users never share a storage path. */
  lemma UserStoragePathsDistinct(env: Env, a: Option<string>, b: Option<string>)
    requires Filled(a) && Filled(b) && a != b
    ensures GetUserStoragePath(env, a) != GetUserStoragePath(env, b)
  {
    var n := |StorageRoot(env)|;
    assert GetUserStoragePath(env, a)[n..] == a.value;
    assert GetUserStoragePath(env, b)[n..] == b.value;
  }

  /** `name` passes `!name || typeof name !== "string"` unrefused: a non-empty string. */
  predicate GlobbedName(name: Value)
  {
    name.Str? && name.s != ""
  }

  /**
   * `findStoragePath(name, type, userId)`: throws `UNKNOWN_USER` without a
   * user; for a falsy name or one that is not a string (an ObjectId, a
   * number) it answers the user's root; otherwise it normalises the trailing
   * '/' of the name (one is appended for type 'd', one is removed for any
   * other type), globs the name at any depth under the root and prefixes
   * every match with the root. `pattern` is the glob pattern used.
   */
  method FindStoragePath(env: Env, name: Value, kind: string, userId: Option<string>, glob: Glob)
    returns (r: Completion<seq<string>>, pattern: Option<string>)
    ensures !Filled(userId) ==> r == Threw("UNKNOWN_USER") && pattern.None?
    ensures Filled(userId) && !GlobbedName(name) ==> r == Normal([GetUserStoragePath(env, userId) + "/"]) && pattern.None?
    ensures Filled(userId) && Truthy(name) && !name.Str? ==> r == Normal([GetUserStoragePath(env, userId) + "/"])
    ensures Filled(userId) && GlobbedName(name) ==>
              && pattern.Some?
              && var basePath := GetUserStoragePath(env, userId);
              && var matches := glob(pattern.value, basePath);
              && r.Normal? && |r.value| == |matches|
              && forall i :: 0 <= i < |matches| ==> r.value[i] == basePath + "/" + matches[i]
    ensures Filled(userId) && GlobbedName(name) && kind == "d" ==>
              && EndsWithSlash(pattern.value)
              && pattern.value == "**/" + name.s + (if EndsWithSlash(name.s) then "" else "/")
    ensures Filled(userId) && GlobbedName(name) && kind != "d" ==>
              pattern.value + (if EndsWithSlash(name.s) then "/" else "") == "**/" + name.s
  {
    if !Filled(userId) {
      return Threw("UNKNOWN_USER"), None;
    }
    var basePath := GetUserStoragePath(env, userId);
    if !Truthy(name) || !name.Str? {
      return Normal([basePath + "/"]), None;
    }
    var n := name.s;
    if kind == "d" {
      if n[|n| - 1] != '/' {
        n := n + "/";
      }
    } else {
      if n[|n| - 1] == '/' {
        n := n[..|n| - 1];
      }
    }
    pattern := Some("**/" + n);
    var matches := glob(pattern.value, basePath);
    r := Normal(seq(|matches|, i requires 0 <= i < |matches| => basePath + "/" + matches[i]));
  }

  /** A glob match with a '/' appended unless it already ends in one. */
  function WithTrailingSlash(item: string): (r: string)
    ensures EndsWithSlash(r)
    ensures r == item || r == item + "/"
  {
    if EndsWithSlash(item) then item else item + "/"
  }

  /**
   * `getAbsolutePath(name, userId)`: throws `INVALID_USER_AND_NAME` only when
   * both are falsy; without a name it is the user's root followed by '/';
   * otherwise the first glob match, under the root, of the pattern that finds
   * the name anywhere in the tree, made to end in '/', or `undefined` when
   * nothing matches.
   */
  function GetAbsolutePath(env: Env, name: Option<string>, userId: Option<string>, glob: Glob)
    : (r: Completion<Option<string>>)
    ensures r.Threw? <==> !Filled(name) && !Filled(userId)
    ensures r.Threw? ==> r.message == "INVALID_USER_AND_NAME"
    ensures r.Normal? && !Filled(name) ==> r.value == Some(GetUserStoragePath(env, userId) + "/")
    ensures r.Normal? && Filled(name) ==>
              var matches := glob("**/*" + name.value + "*", GetUserStoragePath(env, userId));
              (r.value.None? <==> matches == [])
              && (r.value.Some? ==> r.value.value == GetUserStoragePath(env, userId) + "/" + WithTrailingSlash(matches[0]))
    ensures r.Normal? && r.value.Some? ==>
              EndsWithSlash(r.value.value) && GetUserStoragePath(env, userId) + "/" <= r.value.value
  {
    if !Filled(name) && !Filled(userId) then Threw("INVALID_USER_AND_NAME")
    else
      var basePath := GetUserStoragePath(env, userId);
      if !Filled(name) then Normal(Some(basePath + "/"))
      else
        var matches := glob("**/*" + name.value + "*", basePath);
        if |matches| == 0 then Normal(None)
        else Normal(Some(basePath + "/" + WithTrailingSlash(matches[0])))
  }

  /** Every path resolved for a user lies under that user's root path. */
  lemma AbsolutePathUnderRoot(env: Env, name: Option<string>, userId: Option<string>, glob: Glob, path: string)
    requires Filled(userId)
    requires GetAbsolutePath(env, name, userId, glob) == Normal(Some(path))
    ensures GetAbsolutePath(env, None, userId, glob) == Normal(Some(GetUserStoragePath(env, userId) + "/"))
    ensures GetUserStoragePath(env, userId) + "/" <= path
  {
  }

  /** The unit `getFolderSize` formats a byte count in. */
  datatype SizeUnit = Bytes | KB | MB | GB

  datatype FolderSize = FolderSize(originalSize: nat, unit: SizeUnit)

  const KiB: nat := 1024

  /**
   * `getFolderSize`, without the rounding of the formatted number: the size is
   * kept, and the unit is the largest whose strict threshold the size exceeds.
   */
  function GetFolderSize(size: nat): (r: FolderSize)
    ensures r.originalSize == size
    ensures r.unit == Bytes <==> size <= KiB
    ensures r.unit == KB <==> KiB < size <= KiB * KiB
    ensures r.unit == MB <==> KiB * KiB < size <= KiB * KiB * KiB
    ensures r.unit == GB <==> KiB * KiB * KiB < size
  {
    if size > KiB * KiB * KiB then FolderSize(size, GB)
    else if size > KiB * KiB then FolderSize(size, MB)
    else if size > KiB then FolderSize(size, KB)
    else FolderSize(size, Bytes)
  }

  function UnitRank(u: SizeUnit): nat
  {
    match u
    case Bytes => 0
    case KB => 1
    case MB => 2
    case GB => 3
  }

  /** A larger folder is never shown in a smaller unit. */
  lemma FolderSizeUnitMonotone(a: nat, b: nat)
    requires a <= b
    ensures UnitRank(GetFolderSize(a).unit) <= UnitRank(GetFolderSize(b).unit)
  {
  }

  /**
   * How the walk of `getFolderNumberStats` classifies one entry: a directory; a
   * file whose sniffed MIME type is audio or video, with or without a stream of
   * codec type video in its probe; any other file; or a file whose sniffing or
   * probing failed (its step rejects and the walk goes on).
   */
  datatype EntryClass = Directory | MediaFile(hasVideoStream: bool) | OtherFile | Unreadable

  datatype NumberStats = NumberStats(folders: nat, audios: nat, videos: nat, files: nat)

  predicate IsFolder(e: EntryClass) { e == Directory }
  predicate IsAudio(e: EntryClass) { e == MediaFile(false) }
  predicate IsVideo(e: EntryClass) { e == MediaFile(true) }

  /** The number of entries satisfying `p`. */
  function CountWhere(entries: seq<EntryClass>, p: EntryClass -> bool): (n: nat)
    ensures n <= |entries|
    decreases |entries|
  {
    if |entries| == 0 then 0
    else CountWhere(entries[..|entries| - 1], p) + (if p(entries[|entries| - 1]) then 1 else 0)
  }

  /**
   * `getFolderNumberStats` over the classified entries of the walk: one counter
   * per kind, incremented entry by entry; `files` is audios plus videos.
   */
  method GetFolderNumberStats(entries: seq<EntryClass>) returns (r: NumberStats)
    ensures r.folders == CountWhere(entries, IsFolder)
    ensures r.audios == CountWhere(entries, IsAudio)
    ensures r.videos == CountWhere(entries, IsVideo)
    ensures r.files == r.audios + r.videos
    ensures r.folders + r.audios + r.videos <= |entries|
  {
    var folders, audios, videos := 0, 0, 0;
    var i := 0;
    while i < |entries|
      invariant 0 <= i <= |entries|
      invariant folders == CountWhere(entries[..i], IsFolder)
      invariant audios == CountWhere(entries[..i], IsAudio)
      invariant videos == CountWhere(entries[..i], IsVideo)
    {
      assert entries[..i + 1][..i] == entries[..i];
      match entries[i] {
        case Directory =>
          folders := folders + 1;
        case MediaFile(hasVideo) =>
          if hasVideo {
            videos := videos + 1;
          } else {
            audios := audios + 1;
          }
        case OtherFile =>
        case Unreadable =>
      }
      i := i + 1;
    }
    assert entries[..|entries|] == entries;
    CountsBounded(entries);
    r := NumberStats(folders, audios, videos, audios + videos);
  }

  /** The three counters never exceed the number of entries walked. */
  lemma {:induction false} CountsBounded(entries: seq<EntryClass>)
    ensures CountWhere(entries, IsFolder) + CountWhere(entries, IsAudio) + CountWhere(entries, IsVideo) <= |entries|
    decreases |entries|
  {
    if |entries| > 0 {
      CountsBounded(entries[..|entries| - 1]);
    }
  }
}

=== FILE: helpers.dfy ===
/**
 * The shared helpers of helpers/index.js: extension lookup by MIME type,
 * default extensions, file-name splitting, the sequential `forAsync`
 * driver and the error / success envelopes.
 */
module Helpers {
  import opened Common
  import opened Strings

  /**
   * `Object.entries(JSON.parse(EXTENSIONS_FULL_LIST))`: extension keys with the
   * MIME types listed for each, in the order the JSON text declares them.
   */
  type ExtensionTable = seq<(string, seq<string>)>

  /** The first entry at or after `k` whose MIME list contains `mime`. */
  function FirstListing(table: ExtensionTable, mime: string, k: nat): (r: Option<nat>)
    requires k <= |table|
    ensures r.Some? ==> k <= r.value < |table| && mime in table[r.value].1
    ensures r.Some? ==> forall j :: k <= j < r.value ==> mime !in table[j].1
    ensures r.None? ==> forall j :: k <= j < |table| ==> mime !in table[j].1
    decreases |table| - k
  {
    if k == |table| then None
    else if mime in table[k].1 then Some(k)
    else FirstListing(table, mime, k + 1)
  }

  /** The extension the lookup reports: the key of the first entry listing `mime`. */
  function ExtensionFor(table: ExtensionTable, mime: string): (r: Option<string>)
    ensures r.None? <==> forall i :: 0 <= i < |table| ==> mime !in table[i].1
    ensures r.Some? ==> exists i :: 0 <= i < |table| && table[i].0 == r.value && mime in table[i].1
                                     && forall j :: 0 <= j < i ==> mime !in table[j].1
  {
    match FirstListing(table, mime, 0)
    case None => None
    case Some(i) => Some(table[i].0)
  }

  /**
   * `getFileExtensionFromMimeType`: scan the entries in order and return the
   * key of the first one whose list includes `mime`; `undefined` when none does.
   */
  method GetFileExtensionFromMimeType(table: ExtensionTable, mime: string) returns (r: Option<string>)
    ensures r == ExtensionFor(table, mime)
  {
    var i := 0;
    while i < |table|
      invariant 0 <= i <= |table|
      invariant FirstListing(table, mime, 0) == FirstListing(table, mime, i)
    {
      if mime in table[i].1 {
        return Some(table[i].0);
      }
      i := i + 1;
    }
    return None;
  }

  /** `getDefaultMediaExtension` */
  function GetDefaultMediaExtension(t: MediaType): (r: string)
    ensures r == "mp3" <==> t == Audio
    ensures r == "mp4" <==> t == Video
    ensures r == "jpg" <==> t.Other?
  {
    match t
    case Audio => "mp3"
    case Video => "mp4"
    case Other(_) => "jpg"
  }

  /** `/audio|video|image/.test(mime)` */
  predicate IsMediaMime(mime: string)
  {
    Contains(mime, "audio") || Contains(mime, "video") || Contains(mime, "image")
  }

  /**
   * `geMediaExtensionFromMimeType`: a non-media MIME type gets the default
   * extension without a lookup; otherwise the table's answer, falling back to
   * the default when the lookup finds nothing (or an empty key).
   */
  function GeMediaExtensionFromMimeType(table: ExtensionTable, mime: string, t: MediaType): (r: string)
    ensures r != ""
    ensures !IsMediaMime(mime) ==> r == GetDefaultMediaExtension(t)
    ensures IsMediaMime(mime) && ExtensionFor(table, mime).Some? && ExtensionFor(table, mime).value != ""
            ==> r == ExtensionFor(table, mime).value
    ensures IsMediaMime(mime) && (ExtensionFor(table, mime).None? || ExtensionFor(table, mime).value == "")
            ==> r == GetDefaultMediaExtension(t)
    ensures r == GetDefaultMediaExtension(t)
            || (IsMediaMime(mime) && exists i :: 0 <= i < |table| && table[i].0 == r && mime in table[i].1)
  {
    if !IsMediaMime(mime) then GetDefaultMediaExtension(t)
    else
      match ExtensionFor(table, mime)
      case Some(e) => if e != "" then e else GetDefaultMediaExtension(t)
      case None => GetDefaultMediaExtension(t)
  }

  datatype FileNameInfo = FileNameInfo(ext: string, base: string)

  /** `getFileNameInfo`: split on '.', the last part is the extension, the others glued together the base. */
  function GetFileNameInfo(fileName: string): FileNameInfo
  {
    var parts := Split(fileName, '.');
    FileNameInfo(parts[|parts| - 1], Concat(parts[..|parts| - 1]))
  }

  /** Neither part holds a '.', and a name without one is all extension. */
  lemma FileNameInfoNoDot(fileName: string)
    ensures '.' !in GetFileNameInfo(fileName).ext && '.' !in GetFileNameInfo(fileName).base
    ensures '.' !in fileName ==> GetFileNameInfo(fileName) == FileNameInfo(fileName, "")
  {
    var parts := Split(fileName, '.');
    SplitSingle(fileName, '.');
    NoDotInConcat(parts[..|parts| - 1]);
  }

  /** A name with a '.' ends with '.' and its extension. */
  lemma FileNameInfoSuffix(fileName: string)
    requires '.' in fileName
    ensures EndsWith(fileName, "." + GetFileNameInfo(fileName).ext)
  {
    var parts := Split(fileName, '.');
    var n := |parts|;
    var ext := parts[n - 1];
    SplitSingle(fileName, '.');
    JoinSplit(fileName, '.');
    JoinWithLast(parts, '.');
    var head := JoinWith(parts[..n - 1], '.');
    assert fileName == head + ['.'] + ext;
    assert fileName[|fileName| - |"." + ext|..] == "." + ext;
  }

  /** Base and extension together are the name with its dots removed. */
  lemma FileNameInfoLetters(fileName: string)
    ensures GetFileNameInfo(fileName).base + GetFileNameInfo(fileName).ext == Without(fileName, '.')
  {
    var parts := Split(fileName, '.');
    var init, last := parts[..|parts| - 1], parts[|parts| - 1];
    ConcatSplit(fileName, '.');
    assert parts == init + [last];
    ConcatAppend(init, [last]);
    assert [last][1..] == [];
    assert Concat([last]) == last + "";
    assert last + "" == last;
  }

  /**
   * What `getFileNameInfo` computes: the extension is the text after the last
   * '.', or the whole name when there is no '.'; base and extension hold no '.',
   * and together they are the name with its dots removed.
   */
  lemma FileNameInfoSpec(fileName: string)
    ensures '.' !in GetFileNameInfo(fileName).ext && '.' !in GetFileNameInfo(fileName).base
    ensures '.' !in fileName ==> GetFileNameInfo(fileName) == FileNameInfo(fileName, "")
    ensures '.' in fileName ==> EndsWith(fileName, "." + GetFileNameInfo(fileName).ext)
    ensures GetFileNameInfo(fileName).base + GetFileNameInfo(fileName).ext == Without(fileName, '.')
  {
    FileNameInfoNoDot(fileName);
    if '.' in fileName {
      FileNameInfoSuffix(fileName);
    }
    FileNameInfoLetters(fileName);
  }

  /** Gluing parts that hold no '.' gives a string without '.'. */
  lemma {:induction false} NoDotInConcat(parts: seq<string>)
    requires forall i :: 0 <= i < |parts| ==> '.' !in parts[i]
    ensures '.' !in Concat(parts)
    decreases |parts|
  {
    if |parts| > 0 {
      NoDotInConcat(parts[1..]);
    }
  }

  /** What one call of `work` does, as the driver sees it. */
  datatype Step = Fulfils | Rejects | Throws

  /** The indices `work` was called with, and whether the loop's promise rejected. */
  datatype LoopRun = LoopRun(calls: seq<nat>, rejected: bool)

  /**
   * `loop(arr, i)` of `forAsync` over an array of length `n`: call `work` on
   * index `i`, wait for it to settle (fulfilled or rejected alike) and go on
   * with `i + 1`; a synchronous throw rejects the loop at once.
   */
  function Loop(n: nat, work: nat -> Step, i: nat): (r: LoopRun)
    requires i <= n
    ensures |r.calls| <= n - i
    ensures forall k :: 0 <= k < |r.calls| ==> r.calls[k] == i + k
    ensures r.rejected <==> exists k :: i <= k < n && work(k) == Throws
    ensures !r.rejected ==> |r.calls| == n - i
    ensures r.rejected ==> |r.calls| >= 1 && work(i + |r.calls| - 1) == Throws
    ensures forall k :: i <= k < i + |r.calls| - 1 ==> work(k) != Throws
    decreases n - i
  {
    if i == n then LoopRun([], false)
    else if work(i) == Throws then LoopRun([i], true)
    else
      var rest := Loop(n, work, i + 1);
      LoopRun([i] + rest.calls, rest.rejected)
  }

  /** `forAsync(arr, work)` for an array of length `n`. */
  function ForAsync(n: nat, work: nat -> Step): LoopRun
  {
    Loop(n, work, 0)
  }

  /**
   * The driver visits every index in ascending order unless a call throws,
   * and a rejected step does not stop it.
   */
  lemma ForAsyncVisitsAll(n: nat, work: nat -> Step)
    requires forall k :: 0 <= k < n ==> work(k) != Throws
    ensures ForAsync(n, work).calls == seq(n, k => k)
    ensures !ForAsync(n, work).rejected
  {
  }

  /** `{code, message}` as `getErrors` keeps it. */
  datatype Brief = Brief(code: string, message: string)

  datatype ErrorResponse = ErrorResponse(status: int, errors: seq<Brief>)

  /** `getErrors(...errors)`: status 400, one `{code, message}` per argument, in order. */
  function GetErrors(codes: seq<ErrorCode>): (r: ErrorResponse)
    requires forall i :: 0 <= i < |codes| ==> codes[i].InCatalogue()
    ensures r.status == 400
    ensures |r.errors| == |codes|
    ensures forall i :: 0 <= i < |codes| ==>
              r.errors[i].code == codes[i].Code() && r.errors[i].message == codes[i].Message()
  {
    ErrorResponse(400, seq(|codes|, i requires 0 <= i < |codes| => Brief(codes[i].Code(), codes[i].Message())))
  }

  datatype SuccessResponse<D> = SuccessResponse(data: D, message: string, status: int)

  /** `getSuccess(data, message = 'Success')`; the default applies when no message is passed. */
  function GetSuccess<D>(data: D, message: Option<string>): (r: SuccessResponse<D>)
    ensures r.status == 200 && r.data == data
    ensures message.None? ==> r.message == "Success"
    ensures message.Some? ==> r.message == message.value
  {
    SuccessResponse(data, if message.Some? then message.value else "Success", 200)
  }
}

=== FILE: multer.dfy ===
/**
 * The upload configuration of media-processing/multerConfig.js: the file
 * filters that accept audio or video by file name, the storage callbacks that
 * pick a fresh directory for an uploaded audio and name the stored file.
 * The file system is the set of existing directory paths; the ObjectIds the
 * storage generates are a finite supply given by the caller.
 */
module UploadConfig {
  import opened Common
  import opened Strings
  import opened Helpers

  /** The upload size limit handed to multer, in bytes. */
  const MaxSize: nat := 900000000

  /** The alternatives of the audio `acceptedRegex`, in the order written. */
  const AudioExtensions: seq<string> :=
    ["au", "ac3", "flac", "ogg", "m4a", "aac", "wav", "mp3", "mid", "aif", "ram", "rpm", "ra", "wma"]

  /** The alternatives of the video `acceptedRegex`, in the order written. */
  const VideoExtensions: seq<string> :=
    ["vlc", "wmv", "ogg", "3g2", "3gp", "mp4", "f4v", "flv", "webm", "mpeg", "mov", "avi", "movie", "rv", "jp2"]

  /** The values of `baseSubDirConfig`: the sub-directories of every audio directory. */
  const SubDirs: seq<string> := ["hls", "dash", "pictures"]

  // ---------------------------------------------------------------- filters

  /**
   * `name.match(/\.(e1|e2|...)$/ig)` finds a match: the name, case folded,
   * ends with a '.' and one of the extensions. With the `g` flag `match`
   * starts from the beginning every time, so the outcome depends on the
   * name alone.
   */
  predicate Accepted(name: string, exts: seq<string>)
  {
    exists i :: 0 <= i < |exts| && EndsWith(LowerStr(name), "." + exts[i])
  }

  /** Extensions as a pattern lists them: lower case and without a '.'. */
  predicate PlainExtensions(exts: seq<string>)
  {
    forall i :: 0 <= i < |exts| ==> '.' !in exts[i] && LowerStr(exts[i]) == exts[i]
  }

  /** Case folding commutes with slicing and with concatenation. */
  lemma LowerStrSuffix(s: string, k: nat)
    requires k <= |s|
    ensures LowerStr(s[k..]) == LowerStr(s)[k..]
  {
  }

  lemma LowerStrAppend(a: string, b: string)
    ensures LowerStr(a + b) == LowerStr(a) + LowerStr(b)
  {
  }

  /** A name ends with at most one '.'-led suffix that holds no other '.'. */
  lemma DotSuffixUnique(x: string, a: string, b: string)
    requires '.' !in a && '.' !in b
    requires EndsWith(x, "." + a) && EndsWith(x, "." + b)
    ensures a == b
  {
    assert x[|x| - |a| - 1] == '.' && x[|x| - |b| - 1] == '.';
    assert a == x[|x| - |a|..];
  }

  /** A match of the pattern ends the name with a '.' and a suffix that folds to the extension. */
  lemma AcceptedHasExtension(name: string, exts: seq<string>)
    requires PlainExtensions(exts)
    requires Accepted(name, exts)
    ensures '.' in name && LowerStr(GetFileNameInfo(name).ext) in exts
  {
    var lname := LowerStr(name);
    var i :| 0 <= i < |exts| && EndsWith(lname, "." + exts[i]);
    var e := exts[i];
    var k := |name| - |e|;
    assert lname[k - 1] == '.';
    assert name[k - 1] == '.';
    var t := name[k..];
    LowerStrSuffix(name, k);
    assert LowerStr(t) == e;
    assert '.' !in t by {
      forall j | 0 <= j < |t|
        ensures t[j] != '.'
      {
        assert LowerStr(t)[j] == Lower(t[j]);
        assert e[j] != '.';
      }
    }
    assert EndsWith(name, "." + t) by {
      assert name[k - 1..] == "." + t;
    }
    var ext := GetFileNameInfo(name).ext;
    FileNameInfoNoDot(name);
    FileNameInfoSuffix(name);
    DotSuffixUnique(name, t, ext);
  }

  /** A name with a '.' whose folded extension is listed matches the pattern. */
  lemma ExtensionIsAccepted(name: string, exts: seq<string>)
    requires '.' in name && LowerStr(GetFileNameInfo(name).ext) in exts
    ensures Accepted(name, exts)
  {
    var ext := GetFileNameInfo(name).ext;
    FileNameInfoSuffix(name);
    var suffix := "." + ext;
    var k := |name| - |suffix|;
    assert name[k..] == suffix;
    LowerStrSuffix(name, k);
    LowerStrAppend(".", ext);
    assert LowerStr(".") == ".";
    var i :| 0 <= i < |exts| && exts[i] == LowerStr(ext);
    assert LowerStr(name)[k..] == "." + exts[i];
  }

  /**
   * The filter pattern accepts a name exactly when the name has a '.' and
   * its extension, as `getFileNameInfo` computes it and case folded, is
   * one of the listed extensions.
   */
  lemma AcceptedByExtension(name: string, exts: seq<string>)
    requires PlainExtensions(exts)
    ensures Accepted(name, exts) <==> '.' in name && LowerStr(GetFileNameInfo(name).ext) in exts
  {
    if Accepted(name, exts) {
      AcceptedHasExtension(name, exts);
    }
    if '.' in name && LowerStr(GetFileNameInfo(name).ext) in exts {
      ExtensionIsAccepted(name, exts);
    }
  }

  /** Lower-case letters and digits only, as every alternative of both patterns is written. */
  predicate PlainWord(e: string)
  {
    forall j :: 0 <= j < |e| ==> 'a' <= e[j] <= 'z' || '0' <= e[j] <= '9'
  }

  lemma PlainWordIsPlain(e: string)
    requires PlainWord(e)
    ensures '.' !in e && LowerStr(e) == e
  {
  }

  lemma {:induction false} PlainWords(exts: seq<string>)
    requires forall i :: 0 <= i < |exts| ==> PlainWord(exts[i])
    ensures PlainExtensions(exts)
  {
    forall i | 0 <= i < |exts|
      ensures '.' !in exts[i] && LowerStr(exts[i]) == exts[i]
    {
      PlainWordIsPlain(exts[i]);
    }
  }

  /** Both extension lists are written as the pattern requires. */
  lemma ExtensionListsPlain()
    ensures PlainExtensions(AudioExtensions) && PlainExtensions(VideoExtensions)
  {
    PlainWords(AudioExtensions);
    PlainWords(VideoExtensions);
  }

  /** The request fields the upload callbacks read and write. */
  class UploadRequest {
    var audioId: Option<string>
    var fileValidationError: Option<string>

    constructor ()
      ensures audioId.None? && fileValidationError.None?
    {
      audioId := None;
      fileValidationError := None;
    }
  }

  /** What a filter hands to its callback: accept the file, or reject it with an error. */
  datatype FilterVerdict = Accept | Reject(error: string)

  /** The body shared by both filters: reject with `message` unless the name matches. */
  method Screen(req: UploadRequest, originalName: string, exts: seq<string>, message: string)
    returns (v: FilterVerdict)
    modifies req
    ensures v.Accept? <==> Accepted(originalName, exts)
    ensures v.Reject? ==> v.error == message && req.fileValidationError == Some(message)
    ensures v.Accept? ==> req.fileValidationError == old(req.fileValidationError)
    ensures req.audioId == old(req.audioId)
  {
    if !Accepted(originalName, exts) {
      req.fileValidationError := Some(message);
      return Reject(message);
    }
    return Accept;
  }

  /** `audioFilter`: only names with an audio extension pass. */
  method AudioFilter(req: UploadRequest, originalName: string) returns (v: FilterVerdict)
    modifies req
    ensures v.Accept? <==> '.' in originalName && LowerStr(GetFileNameInfo(originalName).ext) in AudioExtensions
    ensures v.Reject? ==> v.error == "Only audio files are allowed!" && req.fileValidationError == Some(v.error)
    ensures v.Accept? ==> req.fileValidationError == old(req.fileValidationError)
    ensures req.audioId == old(req.audioId)
  {
    ExtensionListsPlain();
    AcceptedByExtension(originalName, AudioExtensions);
    v := Screen(req, originalName, AudioExtensions, "Only audio files are allowed!");
  }

  /** `videoFilter`: only names with a video extension pass. */
  method VideoFilter(req: UploadRequest, originalName: string) returns (v: FilterVerdict)
    modifies req
    ensures v.Accept? <==> '.' in originalName && LowerStr(GetFileNameInfo(originalName).ext) in VideoExtensions
    ensures v.Reject? ==> v.error == "Only video files are allowed!" && req.fileValidationError == Some(v.error)
    ensures v.Accept? ==> req.fileValidationError == old(req.fileValidationError)
    ensures req.audioId == old(req.audioId)
  {
    ExtensionListsPlain();
    AcceptedByExtension(originalName, VideoExtensions);
    v := Screen(req, originalName, VideoExtensions, "Only video files are allowed!");
  }

  // --------------------------------------------------------------- filename

  /** The `filename` callback: the audio id (or 'undefined'), a '.', and the extension for the MIME type. */
  function StoredFileName(audioId: Option<string>, table: ExtensionTable, mime: string): string
  {
    (if audioId.Some? then audioId.value else "undefined") + "." + GeMediaExtensionFromMimeType(table, mime, Audio)
  }

  /**
   * Reading the stored name back with `getFileNameInfo` gives the audio id
   * as the base and the MIME type's extension, provided neither holds a '.'.
   */
  lemma StoredFileNameRoundTrip(id: string, table: ExtensionTable, mime: string)
    requires '.' !in id
    requires forall i :: 0 <= i < |table| ==> '.' !in table[i].0
    ensures GetFileNameInfo(StoredFileName(Some(id), table, mime))
            == FileNameInfo(GeMediaExtensionFromMimeType(table, mime, Audio), id)
  {
    var ext := GeMediaExtensionFromMimeType(table, mime, Audio);
    assert '.' !in ext by {
      if IsMediaMime(mime) && ExtensionFor(table, mime).Some? && ExtensionFor(table, mime).value != "" {
        var i :| 0 <= i < |table| && table[i].0 == ExtensionFor(table, mime).value && mime in table[i].1;
      }
    }
    SplitPrefix(id, '.', ext);
    SplitSingle(ext, '.');
    var parts := Split(id + ['.'] + ext, '.');
    assert parts == [id, ext];
    assert Concat(parts[..1]) == id + Concat([]);
  }

  // ------------------------------------------------------------ destination

  /** The directory of an audio: the storage directory, '/', the id. */
  function AudioDir(storage: string, id: string): string
  {
    storage + "/" + id
  }

  /** The first `n` sub-directories of `dir`. */
  function SubPaths(dir: string, n: nat): set<string>
    requires n <= |SubDirs|
  {
    if n == 0 then {} else SubPaths(dir, n - 1) + {dir + "/" + SubDirs[n - 1]}
  }

  /** Everything the storage creates for one audio: its directory and all its sub-directories. */
  function Created(dir: string): set<string>
  {
    {dir} + SubPaths(dir, |SubDirs|)
  }

  /** The directory set of the file system under the audio storage directory. */
  class AudioStore {
    var dirs: set<string>

    constructor (dirs: set<string>)
      ensures this.dirs == dirs
    {
      this.dirs := dirs;
    }
  }

  /** Where the storage put an upload: the chosen id and directory, or nowhere because the loop never ends. */
  datatype Placement = Chosen(id: string, dir: string) | Diverged

  /** `mkdirSync(dir)` followed by `mkdirSync` of each sub-directory. */
  method MakeAudioDirs(store: AudioStore, dir: string)
    modifies store
    ensures store.dirs == old(store.dirs) + Created(dir)
  {
    store.dirs := store.dirs + {dir};
    var j := 0;
    while j < |SubDirs|
      invariant 0 <= j <= |SubDirs|
      invariant store.dirs == old(store.dirs) + {dir} + SubPaths(dir, j)
    {
      store.dirs := store.dirs + {dir + "/" + SubDirs[j]};
      j := j + 1;
    }
  }

  /**
   * The placement as the `destination` callback computes it: `dir` is fixed
   * from the first id, and a regenerated id never changes it, so an existing
   * directory keeps the loop going for ever.
   */
  function DestinationOutcome(storage: string, ids: seq<string>, dirs: set<string>): Placement
    requires |ids| >= 1
  {
    var dir := AudioDir(storage, ids[0]);
    if dir in dirs then Diverged else Chosen(ids[0], dir)
  }

  /**
   * The `destination` callback as written. `ids` are the ObjectIds the loop
   * would generate, first to last; when they run out the loop has still not
   * ended, which the result reports as `Diverged`.
   */
  method Destination(req: UploadRequest, store: AudioStore, storage: string, ids: seq<string>)
    returns (r: Placement)
    requires |ids| >= 1
    modifies req, store
    ensures r == DestinationOutcome(storage, ids, old(store.dirs))
    ensures r.Chosen? ==> store.dirs == old(store.dirs) + Created(r.dir) && req.audioId == Some(r.id)
    ensures r.Diverged? ==> store.dirs == old(store.dirs) && req.audioId == old(req.audioId)
    ensures req.fileValidationError == old(req.fileValidationError)
  {
    var audioId, isAudioIdUnique := ids[0], true;
    var dir := AudioDir(storage, audioId);
    var k := 1;
    var iterated := false;
    while !iterated || !isAudioIdUnique
      invariant 1 <= k <= |ids|
      invariant !iterated ==> audioId == ids[0] && store.dirs == old(store.dirs) && req.audioId == old(req.audioId)
      invariant iterated && !isAudioIdUnique ==>
                  dir in old(store.dirs) && store.dirs == old(store.dirs) && req.audioId == old(req.audioId)
      invariant iterated && isAudioIdUnique ==>
                  dir !in old(store.dirs) && store.dirs == old(store.dirs) + Created(dir) && req.audioId == Some(ids[0])
      invariant req.fileValidationError == old(req.fileValidationError)
      decreases |ids| - k, if iterated && isAudioIdUnique then 0 else 1
    {
      if dir !in store.dirs {
        MakeAudioDirs(store, dir);
        req.audioId := Some(audioId);
        isAudioIdUnique := true;
      } else {
        if k == |ids| {
          return Diverged;
        }
        audioId := ids[k];
        k := k + 1;
        isAudioIdUnique := false;
      }
      iterated := true;
    }
    return Chosen(ids[0], dir);
  }

  /** The first id at or after `k` whose directory does not exist yet. */
  function FirstFree(storage: string, ids: seq<string>, dirs: set<string>, k: nat): (r: Option<nat>)
    requires k <= |ids|
    ensures r.Some? ==> k <= r.value < |ids| && AudioDir(storage, ids[r.value]) !in dirs
    ensures r.Some? ==> forall j :: k <= j < r.value ==> AudioDir(storage, ids[j]) in dirs
    ensures r.None? ==> forall j :: k <= j < |ids| ==> AudioDir(storage, ids[j]) in dirs
    decreases |ids| - k
  {
    if k == |ids| then None
    else if AudioDir(storage, ids[k]) !in dirs then Some(k)
    else FirstFree(storage, ids, dirs, k + 1)
  }

  /**
   * The placement the loop is evidently meant to compute: the directory of
   * the first generated id that is not taken yet.
   */
  function IntendedPlacement(storage: string, ids: seq<string>, dirs: set<string>): (r: Placement)
    ensures r.Chosen? <==> exists i :: 0 <= i < |ids| && AudioDir(storage, ids[i]) !in dirs
    ensures r.Chosen? ==> r.dir == AudioDir(storage, r.id) && r.dir !in dirs
    ensures r.Chosen? ==> exists i :: 0 <= i < |ids| && ids[i] == r.id
                                      && forall j :: 0 <= j < i ==> AudioDir(storage, ids[j]) in dirs
  {
    match FirstFree(storage, ids, dirs, 0)
    case Some(i) => Chosen(ids[i], AudioDir(storage, ids[i]))
    case None => Diverged
  }

  /** The corrected `destination`: the directory is recomputed from every regenerated id. */
  method IntendedDestination(req: UploadRequest, store: AudioStore, storage: string, ids: seq<string>)
    returns (r: Placement)
    modifies req, store
    ensures r == IntendedPlacement(storage, ids, old(store.dirs))
    ensures r.Chosen? ==> store.dirs == old(store.dirs) + Created(r.dir) && req.audioId == Some(r.id)
    ensures r.Diverged? ==> store.dirs == old(store.dirs) && req.audioId == old(req.audioId)
    ensures req.fileValidationError == old(req.fileValidationError)
  {
    var k := 0;
    while k < |ids|
      invariant 0 <= k <= |ids|
      invariant forall j :: 0 <= j < k ==> AudioDir(storage, ids[j]) in old(store.dirs)
      invariant store.dirs == old(store.dirs) && req.audioId == old(req.audioId)
      invariant req.fileValidationError == old(req.fileValidationError)
    {
      var dir := AudioDir(storage, ids[k]);
      if dir !in store.dirs {
        MakeAudioDirs(store, dir);
        req.audioId := Some(ids[k]);
        return Chosen(ids[k], dir);
      }
      k := k + 1;
    }
    return Diverged;
  }

  /**
   * When the first id's directory exists, the callback as written never
   * places the upload, however many ids it generates, while the intended
   * placement succeeds as soon as one generated id is free.
   */
  lemma TakenFirstDirNeverPlaced(storage: string, ids: seq<string>, dirs: set<string>)
    requires |ids| >= 2
    requires AudioDir(storage, ids[0]) in dirs && AudioDir(storage, ids[1]) !in dirs
    ensures DestinationOutcome(storage, ids, dirs) == Diverged
    ensures IntendedPlacement(storage, ids, dirs) == Chosen(ids[1], AudioDir(storage, ids[1]))
  {
    assert FirstFree(storage, ids, dirs, 0) == FirstFree(storage, ids, dirs, 1);
  }

  /** On a free first directory the two agree. */
  lemma FreeFirstDirAgrees(storage: string, ids: seq<string>, dirs: set<string>)
    requires |ids| >= 1 && AudioDir(storage, ids[0]) !in dirs
    ensures DestinationOutcome(storage, ids, dirs) == IntendedPlacement(storage, ids, dirs)
    ensures DestinationOutcome(storage, ids, dirs).Chosen?
  {
  }
}

=== FILE: playlist.dfy ===
/**
 * The playlist controller of controllers/playlist.js: the content
 * computations of `addItems` (append, de-duplicated the way a `Set` does) and
 * `removeContent` (an order-preserving filter), the handlers that load a
 * playlist, apply them and answer on the socket, and the hydration of a
 * playlist's content into media records slot by slot.
 *
 * Content entries are compared the way `Set` and `includes` compare objects:
 * by identity. The pure computations are generic in the entry type, whose
 * equality stands for that identity; stored entries carry an explicit
 * reference number `ref` for it.
 */
module PlaylistController {
  import opened Common

  // ---------------------------------------------------------------------
  // Content computations
  // ---------------------------------------------------------------------

  /**
   * `[...new Set(s)]`: the entries of `s` in the order a `Set` first receives
   * them, each kept once.
   */
  function Dedup<E(==)>(s: seq<E>): seq<E>
    decreases |s|
  {
    if |s| == 0 then []
    else
      var d := Dedup(s[..|s| - 1]);
      var y := s[|s| - 1];
      if y in d then d else d + [y]
  }

  /** A `Set` round trip keeps every entry of `s`, each once, and never lengthens the list. */
  lemma {:induction false} DedupKeepsEachOnce<E(!new)>(s: seq<E>)
    ensures forall x :: x in Dedup(s) <==> x in s
    ensures Distinct(Dedup(s))
    ensures |Dedup(s)| <= |s|
    decreases |s|
  {
    if |s| > 0 {
      var s', y := s[..|s| - 1], s[|s| - 1];
      DedupKeepsEachOnce(s');
      assert s == s' + [y];
    }
  }

  /**
   * `content.filter(e => !items.includes(e))`: the entries of `content` that
   * `items` does not contain, in their original order.
   */
  function Remaining<E(==)>(content: seq<E>, items: seq<E>): seq<E>
    decreases |content|
  {
    if |content| == 0 then []
    else
      var rest := Remaining(content[..|content| - 1], items);
      var x := content[|content| - 1];
      if x in items then rest else rest + [x]
  }

  /** The filter keeps exactly the entries that `items` lacks, and never lengthens the list. */
  lemma {:induction false} RemainingKeeps<E(!new)>(content: seq<E>, items: seq<E>)
    ensures forall x :: x in Remaining(content, items) <==> x in content && x !in items
    ensures |Remaining(content, items)| <= |content|
    decreases |content|
  {
    if |content| > 0 {
      var c', x := content[..|content| - 1], content[|content| - 1];
      RemainingKeeps(c', items);
      assert content == c' + [x];
    }
  }

  /**
   * The new content `addItems` writes: `[...new Set([...content, ...items])]`.
   * Every entry of either list is kept, and each only once.
   */
  function AddedContent<E(==,!new)>(content: seq<E>, items: seq<E>): (r: seq<E>)
    ensures forall x :: x in r <==> x in content || x in items
    ensures Distinct(r)
  {
    DedupKeepsEachOnce(content + items);
    Dedup(content + items)
  }

  /** `a` occurs in `b` in the same relative order (`b` with some entries dropped). */
  predicate IsSubsequence<E(==,!new)>(a: seq<E>, b: seq<E>)
    decreases |b|
  {
    if |a| == 0 then true
    else if |b| == 0 then false
    else if a[|a| - 1] == b[|b| - 1] then IsSubsequence(a[..|a| - 1], b[..|b| - 1])
    else IsSubsequence(a, b[..|b| - 1])
  }

  /** One step of `Dedup`: a new last entry is kept only if it was not seen before. */
  lemma DedupSnoc<E(!new)>(s: seq<E>, y: E)
    ensures Dedup(s + [y]) == if y in Dedup(s) then Dedup(s) else Dedup(s) + [y]
  {
    assert (s + [y])[..|s + [y]| - 1] == s;
  }

  /** One step of `Remaining`: a new last entry is kept only if `items` lacks it. */
  lemma RemainingSnoc<E(!new)>(s: seq<E>, y: E, items: seq<E>)
    ensures Remaining(s + [y], items) == if y in items then Remaining(s, items) else Remaining(s, items) + [y]
  {
    assert (s + [y])[..|s + [y]| - 1] == s;
  }

  lemma SnocAssoc<E>(x: seq<E>, z: seq<E>, y: E)
    ensures (x + z) + [y] == x + (z + [y])
  {
  }

  /** Filtering distributes over concatenation. */
  lemma {:induction false} RemainingAppend<E(!new)>(a: seq<E>, b: seq<E>, items: seq<E>)
    ensures Remaining(a + b, items) == Remaining(a, items) + Remaining(b, items)
    decreases |b|
  {
    if |b| == 0 {
      assert a + b == a;
    } else {
      var b', y := b[..|b| - 1], b[|b| - 1];
      RemainingAppend(a, b', items);
      var ra, rb' := Remaining(a, items), Remaining(b', items);
      calc {
        Remaining(a + b, items);
        { assert a + b == (a + b') + [y]; }
        Remaining((a + b') + [y], items);
        { RemainingSnoc(a + b', y, items); }
        if y in items then ra + rb' else (ra + rb') + [y];
        { assert (ra + rb') + [y] == ra + (rb' + [y]); }
        ra + (if y in items then rb' else rb' + [y]);
        { RemainingSnoc(b', y, items); assert b == b' + [y]; }
        ra + Remaining(b, items);
      }
    }
  }

  /** De-duplicating `a + b` keeps `a`'s distinct entries and appends the new ones of `b`. */
  lemma {:induction false} DedupAppend<E(!new)>(a: seq<E>, b: seq<E>)
    ensures Dedup(a + b) == Dedup(a) + Dedup(Remaining(b, a))
    decreases |b|
  {
    if |b| == 0 {
      assert a + b == a;
    } else {
      var b', y := b[..|b| - 1], b[|b| - 1];
      assert b == b' + [y];
      assert a + b == (a + b') + [y];
      DedupAppend(a, b');
      DedupSnoc(a + b', y);
      RemainingSnoc(b', y, a);
      DedupKeepsEachOnce(a);
      if y !in a {
        DedupSnoc(Remaining(b', a), y);
        SnocAssoc(Dedup(a), Dedup(Remaining(b', a)), y);
      }
    }
  }

  /** A list without repeated entries is left as it is by a `Set` round trip. */
  lemma {:induction false} DedupOfDistinct<E(!new)>(s: seq<E>)
    requires Distinct(s)
    ensures Dedup(s) == s
    decreases |s|
  {
    if |s| > 0 {
      var s' := s[..|s| - 1];
      assert Distinct(s');
      DedupOfDistinct(s');
      assert s[|s| - 1] !in s';
      assert s' + [s[|s| - 1]] == s;
    }
  }

  /**
   * `addItems` on content that holds no repeated entry: the old content stays
   * in place, followed by the items it did not hold yet, in their order, each once.
   */
  lemma AddedContentExtends<E(!new)>(content: seq<E>, items: seq<E>)
    requires Distinct(content)
    ensures AddedContent(content, items) == content + Dedup(Remaining(items, content))
    ensures content <= AddedContent(content, items)
  {
    DedupAppend(content, items);
    DedupOfDistinct(content);
  }

  /** Removing the same items a second time changes nothing. */
  lemma {:induction false} RemainingIdempotent<E(!new)>(content: seq<E>, items: seq<E>)
    ensures Remaining(Remaining(content, items), items) == Remaining(content, items)
    decreases |content|
  {
    if |content| > 0 {
      var c', x := content[..|content| - 1], content[|content| - 1];
      RemainingIdempotent(c', items);
      var rest := Remaining(c', items);
      if x !in items {
        assert (rest + [x])[..|rest + [x]| - 1] == rest;
      }
    }
  }

  /** What `removeContent` keeps occurs in the old content in the same relative order. */
  lemma {:induction false} RemainingIsSubsequence<E(!new)>(content: seq<E>, items: seq<E>)
    ensures IsSubsequence(Remaining(content, items), content)
    decreases |content|
  {
    if |content| > 0 {
      var c', x := content[..|content| - 1], content[|content| - 1];
      RemainingIsSubsequence(c', items);
      var rest := Remaining(c', items);
      if x !in items {
        assert (rest + [x])[..|rest + [x]| - 1] == rest;
      } else if |rest| > 0 {
        RemainingKeeps(c', items);
        assert rest[|rest| - 1] in rest;
      }
    }
  }

  /** Every entry not in `items` keeps its number of occurrences; entries in `items` are gone. */
  lemma {:induction false} RemainingMultiplicity<E(!new)>(content: seq<E>, items: seq<E>, x: E)
    ensures multiset(Remaining(content, items))[x] == if x in items then 0 else multiset(content)[x]
    decreases |content|
  {
    if |content| > 0 {
      var c', y := content[..|content| - 1], content[|content| - 1];
      RemainingMultiplicity(c', items, x);
      assert content == c' + [y];
      assert multiset(content) == multiset(c') + multiset{y};
      var rest := Remaining(c', items);
      if y !in items {
        assert multiset(rest + [y]) == multiset(rest) + multiset{y};
      }
    }
  }

  /**
   * Removing the items just added leaves the old content, de-duplicated,
   * without those items: nothing else is lost or gained.
   */
  lemma AddThenRemove<E(!new)>(content: seq<E>, items: seq<E>)
    ensures Remaining(AddedContent(content, items), items) == Remaining(Dedup(content), items)
  {
    DedupAppend(content, items);
    var added := Dedup(Remaining(items, content));
    DedupKeepsEachOnce(Remaining(items, content));
    RemainingKeeps(items, content);
    RemainingAppend(Dedup(content), added, items);
    RemainingOfCovered(added, items);
    assert Remaining(Dedup(content), items) + [] == Remaining(Dedup(content), items);
  }

  /** Removing a list of items from entries that all belong to it leaves nothing. */
  lemma {:induction false} RemainingOfCovered<E(!new)>(s: seq<E>, items: seq<E>)
    requires forall z :: z in s ==> z in items
    ensures Remaining(s, items) == []
    decreases |s|
  {
    if |s| > 0 {
      RemainingOfCovered(s[..|s| - 1], items);
    }
  }

  /** Filtering out items none of which occurs in the list changes nothing. */
  lemma {:induction false} RemainingOfForeign<E(!new)>(s: seq<E>, items: seq<E>)
    requires forall z :: z in s ==> z !in items
    ensures Remaining(s, items) == s
    decreases |s|
  {
    if |s| > 0 {
      var s', y := s[..|s| - 1], s[|s| - 1];
      RemainingOfForeign(s', items);
      assert s' + [y] == s;
    }
  }

  // ---------------------------------------------------------------------
  // Stored playlists and the socket handlers
  // ---------------------------------------------------------------------

  /** A content entry `{type, id}`; `ref` is the identity of the entry object. */
  datatype ContentEntry = ContentEntry(ref: nat, kind: MediaType, id: string)

  /** A playlist document; `userId` is the owner, which the schema requires. */
  datatype Playlist = Playlist(name: Value, content: seq<ContentEntry>, userId: Option<string>)

  /** The validation `save` runs before writing: a document without `userId` is refused. */
  predicate PassesSchema(p: Playlist)
  {
    p.userId.Some?
  }

  /** An audio record as `Audio.find` returns it. */
  datatype AudioRecord = AudioRecord(id: string, title: string)

  /** `data.items` of an add or remove request. */
  datatype ItemsArg =
    | Missing                              // undefined or null
    | NotArray                             // an object that is not an array
    | Items(entries: seq<ContentEntry>)

  /**
   * The items of a request are parsed afresh from the socket message, so none
   * of them is one of the stored entries. Compared by identity, as written,
   * `removeContent` then keeps every entry, and `addItems` appends every item
   * (duplicate-free, as parsed objects are), whether or not its id is stored.
   */
  lemma FreshItemsMatchNothing(content: seq<ContentEntry>, items: seq<ContentEntry>)
    requires forall x :: x in items ==> x !in content
    ensures Remaining(content, items) == content
    ensures Distinct(content) && Distinct(items) ==> AddedContent(content, items) == content + items
  {
    RemainingOfForeign(content, items);
    if Distinct(content) && Distinct(items) {
      AddedContentExtends(content, items);
      RemainingOfForeign(items, content);
      DedupOfDistinct(items);
    }
  }

  /** Some item names the same media id as `e`. */
  predicate NamedBy(items: seq<ContentEntry>, e: ContentEntry)
  {
    exists i :: i in items && i.id == e.id
  }

  /** `removeContent` as intended: the entries whose id no item names, in their order. */
  function RemainingById(content: seq<ContentEntry>, items: seq<ContentEntry>): seq<ContentEntry>
    decreases |content|
  {
    if |content| == 0 then []
    else
      var rest := RemainingById(content[..|content| - 1], items);
      var x := content[|content| - 1];
      if NamedBy(items, x) then rest else rest + [x]
  }

  /** Removal by id keeps exactly the entries whose id no item names, in their original order. */
  lemma {:induction false} RemainingByIdKeeps(content: seq<ContentEntry>, items: seq<ContentEntry>)
    ensures forall x :: x in RemainingById(content, items) <==> x in content && !NamedBy(items, x)
    ensures IsSubsequence(RemainingById(content, items), content)
    decreases |content|
  {
    if |content| > 0 {
      var c', x := content[..|content| - 1], content[|content| - 1];
      RemainingByIdKeeps(c', items);
      assert content == c' + [x];
      var rest := RemainingById(c', items);
      if !NamedBy(items, x) {
        assert (rest + [x])[..|rest + [x]| - 1] == rest;
      } else if |rest| > 0 {
        assert rest[|rest| - 1] in rest;
      }
    }
  }

  /** A stored entry sent back as a fresh copy is kept by the code and removed by id. */
  lemma RemoveSentBackCopy()
    ensures var stored := [ContentEntry(0, Audio, "a1"), ContentEntry(1, Audio, "a2")];
            var items := [ContentEntry(2, Audio, "a1")];
            Remaining(stored, items) == stored
            && RemainingById(stored, items) == [ContentEntry(1, Audio, "a2")]
  {
    var stored := [ContentEntry(0, Audio, "a1"), ContentEntry(1, Audio, "a2")];
    var items := [ContentEntry(2, Audio, "a1")];
    FreshItemsMatchNothing(stored, items);
    assert stored[..1] == [stored[0]] && [stored[0]][..0] == [];
    assert NamedBy(items, stored[0]) && !NamedBy(items, stored[1]);
  }

  /** What a playlist handler emits on its output event. */
  datatype PlaylistEvent =
    | Err(code: string)                    // {status: false, error: code, ...}
    | DbErr(message: string)               // {status: false, error, message}
    | Acknowledged                         // {status: true, data: <update result>}
    | Saved(playlist: Playlist)
    | Loaded(playlist: Playlist, content: seq<Option<AudioRecord>>)

  /** Whether the async handler ran to its end or rejected with a `TypeError`. */
  datatype HandlerEnd = Finished | Aborted

  /** The two guards on `data.items`, which emit but do not return. */
  function ItemsGuards(items: ItemsArg): seq<PlaylistEvent>
  {
    (if items.Missing? || items.NotArray? then [Err("INVALID_ITEMS")] else [])
    + (if items.Items? && |items.entries| == 0 then [Err("EMPTY_ITEMS")] else [])
  }

  /** `data.content || []` */
  function DefaultContent(content: Option<seq<ContentEntry>>): seq<ContentEntry>
  {
    if content.Some? then content.value else []
  }

  /** The playlist collection and the messages sent on the socket. */
  class PlaylistStore {
    var playlists: map<string, Playlist>
    var sent: seq<PlaylistEvent>

    /** Every stored playlist passed the schema when it was saved, and updates keep its owner. */
    predicate Valid()
      reads this
    {
      forall id :: id in playlists ==> PassesSchema(playlists[id])
    }

    constructor ()
      ensures playlists == map[] && sent == []
      ensures Valid()
    {
      playlists := map[];
      sent := [];
    }

    /**
     * `getFromDBOnePlaylist(id)`: the stored playlist, or `null` when there is
     * none or the lookup fails (a failure is mapped to `null`).
     */
    function GetFromDBOnePlaylist(id: string, lookupFails: bool): (r: Option<Playlist>)
      reads this
      ensures r.Some? <==> !lookupFails && id in playlists
      ensures r.Some? ==> r.value == playlists[id]
    {
      if !lookupFails && id in playlists then Some(playlists[id]) else None
    }

    /**
     * `create` with the owner's id as an input: a falsy name is reported but
     * the document is still built, with the content defaulting to the empty
     * list; `save` refuses a document without an owner and otherwise writes it
     * unless the database fails.
     */
    method Create(name: Value, content: Option<seq<ContentEntry>>, userId: Option<string>, newId: string, writeOk: bool)
      requires Valid() && newId !in playlists
      modifies this
      ensures Valid()
      ensures var p := Playlist(name, DefaultContent(content), userId);
              var saved := PassesSchema(p) && writeOk;
              && (saved ==> playlists == old(playlists)[newId := p])
              && (!saved ==> playlists == old(playlists))
              && sent == old(sent)
                         + (if Truthy(name) then [] else [Err("INVALID_NAME")])
                         + (if saved then [Saved(p)] else [DbErr("Error while creating a playlist")])
    {
      if !Truthy(name) {
        sent := sent + [Err("INVALID_NAME")];
      }
      var playlist := Playlist(name, if content.Some? then content.value else [], userId);
      if PassesSchema(playlist) && writeOk {
        playlists := playlists[newId := playlist];
        sent := sent + [Saved(playlist)];
      } else {
        sent := sent + [DbErr("Error while creating a playlist")];
      }
    }

    /**
     * `create` as written: the document is built from `data.name` and
     * `data.content` only, so it has no `userId` and `save` always refuses it.
     */
    method CreateAsWritten(name: Value, content: Option<seq<ContentEntry>>, newId: string, writeOk: bool)
      requires Valid() && newId !in playlists
      modifies this
      ensures Valid()
      ensures playlists == old(playlists)
      ensures sent == old(sent)
                      + (if Truthy(name) then [] else [Err("INVALID_NAME")])
                      + [DbErr("Error while creating a playlist")]
    {
      Create(name, content, None, newId, writeOk);
    }

    /**
     * `addItems`: the guards emit without returning; a missing list then
     * fails on `.length`. A found playlist gets `AddedContent` of its content
     * and the items; a missing one gets `INVALID_PLAYLIST_SELECTED`.
     */
    method AddItems(id: string, items: ItemsArg, lookupFails: bool, updateOk: bool) returns (end: HandlerEnd)
      requires Valid()
      modifies this
      ensures Valid()
      ensures items.Missing? ==>
                end == Aborted && playlists == old(playlists) && sent == old(sent) + [Err("INVALID_ITEMS")]
      ensures !items.Missing? && old(GetFromDBOnePlaylist(id, lookupFails)).None? ==>
                && end == Finished && playlists == old(playlists)
                && sent == old(sent) + ItemsGuards(items) + [Err("INVALID_PLAYLIST_SELECTED")]
      ensures items.NotArray? && old(GetFromDBOnePlaylist(id, lookupFails)).Some? ==>
                end == Aborted && playlists == old(playlists) && sent == old(sent) + ItemsGuards(items)
      ensures items.Items? && old(GetFromDBOnePlaylist(id, lookupFails)).Some? ==>
                && end == Finished
                && var p := old(playlists)[id];
                && (updateOk ==> playlists == old(playlists)[id := p.(content := AddedContent(p.content, items.entries))]
                                 && sent == old(sent) + ItemsGuards(items) + [Acknowledged])
                && (!updateOk ==> playlists == old(playlists)
                                  && sent == old(sent) + ItemsGuards(items) + [DbErr("Error while adding items into a playlist")])
    {
      if items.Missing? || items.NotArray? {
        sent := sent + [Err("INVALID_ITEMS")];
      }
      if items.Missing? {
        return Aborted;   // `data.items.length` on undefined throws
      }
      if items.Items? && |items.entries| == 0 {
        sent := sent + [Err("EMPTY_ITEMS")];
      }
      var playlist := GetFromDBOnePlaylist(id, lookupFails);
      if playlist.None? {
        sent := sent + [Err("INVALID_PLAYLIST_SELECTED")];
        return Finished;
      }
      if items.NotArray? {
        return Aborted;   // spreading a non-iterable object throws
      }
      var p := playlist.value;
      if updateOk {
        playlists := playlists[id := p.(content := AddedContent(p.content, items.entries))];
        sent := sent + [Acknowledged];
      } else {
        sent := sent + [DbErr("Error while adding items into a playlist")];
      }
      return Finished;
    }

    /**
     * `removeContent`: the same guards; a found playlist keeps the entries the
     * items do not contain. With a non-array `items` the filter's `includes`
     * throws, unless the content is empty and the callback never runs.
     */
    method RemoveContent(id: string, items: ItemsArg, lookupFails: bool, updateOk: bool) returns (end: HandlerEnd)
      requires Valid()
      modifies this
      ensures Valid()
      ensures items.Missing? ==>
                end == Aborted && playlists == old(playlists) && sent == old(sent) + [Err("INVALID_ITEMS")]
      ensures !items.Missing? && old(GetFromDBOnePlaylist(id, lookupFails)).None? ==>
                && end == Finished && playlists == old(playlists)
                && sent == old(sent) + ItemsGuards(items) + [Err("INVALID_PLAYLIST_SELECTED")]
      ensures items.NotArray? && old(GetFromDBOnePlaylist(id, lookupFails)).Some? && old(playlists)[id].content != [] ==>
                end == Aborted && playlists == old(playlists) && sent == old(sent) + ItemsGuards(items)
      ensures !items.Missing? && old(GetFromDBOnePlaylist(id, lookupFails)).Some?
              && (items.Items? || old(playlists)[id].content == []) ==>
                && end == Finished
                && var p := old(playlists)[id];
                && var kept := if items.Items? then Remaining(p.content, items.entries) else [];
                && (updateOk ==> playlists == old(playlists)[id := p.(content := kept)]
                                 && sent == old(sent) + ItemsGuards(items) + [Acknowledged])
                && (!updateOk ==> playlists == old(playlists)
                                  && sent == old(sent) + ItemsGuards(items) + [DbErr("Error while adding items into a playlist")])
    {
      if items.Missing? || items.NotArray? {
        sent := sent + [Err("INVALID_ITEMS")];
      }
      if items.Missing? {
        return Aborted;   // `data.items.length` on undefined throws
      }
      if items.Items? && |items.entries| == 0 {
        sent := sent + [Err("EMPTY_ITEMS")];
      }
      var playlist := GetFromDBOnePlaylist(id, lookupFails);
      if playlist.None? {
        sent := sent + [Err("INVALID_PLAYLIST_SELECTED")];
        return Finished;
      }
      var p := playlist.value;
      var kept: seq<ContentEntry>;
      if items.Items? {
        kept := Remaining(p.content, items.entries);
      } else if p.content == [] {
        kept := [];
      } else {
        return Aborted;   // `items.includes` is not a function
      }
      if updateOk {
        playlists := playlists[id := p.(content := kept)];
        sent := sent + [Acknowledged];
      } else {
        sent := sent + [DbErr("Error while adding items into a playlist")];
      }
      return Finished;
    }
  }

  // ---------------------------------------------------------------------
  // Hydration of playlist content
  // ---------------------------------------------------------------------

  /** `content.filter(e => e.type === kind).map(e => e.id)` */
  function IdsOfKind(content: seq<ContentEntry>, kind: MediaType): (r: seq<string>)
    ensures |r| <= |content|
    ensures forall x :: x in r <==> exists i :: 0 <= i < |content| && content[i].kind == kind && content[i].id == x
    decreases |content|
  {
    if |content| == 0 then []
    else
      var e := content[|content| - 1];
      var rest := IdsOfKind(content[..|content| - 1], kind);
      assert forall i :: 0 <= i < |content| - 1 ==> content[..|content| - 1][i] == content[i];
      if e.kind == kind then rest + [e.id] else rest
  }

  /** The ids are collected entry by entry: one id for an entry of the kind, none for another. */
  lemma IdsOfKindOne(e: ContentEntry, kind: MediaType)
    ensures IdsOfKind([e], kind) == if e.kind == kind then [e.id] else []
  {
    assert [e][..0] == [];
  }

  /** Collecting ids distributes over concatenation, so they come in content order, one per entry. */
  lemma {:induction false} IdsOfKindAppend(a: seq<ContentEntry>, b: seq<ContentEntry>, kind: MediaType)
    ensures IdsOfKind(a + b, kind) == IdsOfKind(a, kind) + IdsOfKind(b, kind)
    decreases |b|
  {
    if |b| == 0 {
      assert a + b == a;
    } else {
      var b', y := b[..|b| - 1], b[|b| - 1];
      IdsOfKindAppend(a, b', kind);
      assert (a + b)[..|a + b| - 1] == a + b';
      assert (a + b)[|a + b| - 1] == y;
      if y.kind == kind {
        assert (IdsOfKind(a, kind) + IdsOfKind(b', kind)) + [y.id] == IdsOfKind(a, kind) + (IdsOfKind(b', kind) + [y.id]);
      }
    }
  }

  /** The audio and the video ids of one content list never outnumber its entries. */
  lemma {:induction false} AudioAndVideoIdsBounded(content: seq<ContentEntry>)
    ensures |IdsOfKind(content, Audio)| + |IdsOfKind(content, Video)| <= |content|
    decreases |content|
  {
    if |content| > 0 {
      AudioAndVideoIdsBounded(content[..|content| - 1]);
    }
  }

  /** `records.find(a => a._id === id)`: the first record with that id, if any. */
  function FirstWithId(records: seq<AudioRecord>, id: string): (r: Option<AudioRecord>)
    ensures r.Some? ==> r.value in records && r.value.id == id
    ensures r.None? <==> forall a :: a in records ==> a.id != id
    decreases |records|
  {
    if |records| == 0 then None
    else if records[0].id == id then Some(records[0])
    else
      assert forall a :: a in records ==> a == records[0] || a in records[1..];
      FirstWithId(records[1..], id)
  }

  predicate UniqueIds(records: seq<AudioRecord>)
  {
    forall i, j :: 0 <= i < j < |records| ==> records[i].id != records[j].id
  }

  /** With unique ids, the record found for an id is the one holding it. */
  lemma FoundIsTheOne(records: seq<AudioRecord>, a: AudioRecord)
    requires UniqueIds(records) && a in records
    ensures FirstWithId(records, a.id) == Some(a)
  {
    var r := FirstWithId(records, a.id);
    var i :| 0 <= i < |records| && records[i] == a;
    var j :| 0 <= j < |records| && records[j] == r.value;
    assert i == j;
  }

  /**
   * The order in which the query returns its records does not matter: two
   * answers holding the same records, each id once, fill every slot alike.
   */
  lemma FetchOrderIrrelevant(a: seq<AudioRecord>, b: seq<AudioRecord>, id: string)
    requires UniqueIds(a) && UniqueIds(b)
    requires forall x :: x in a <==> x in b
    ensures FirstWithId(a, id) == FirstWithId(b, id)
  {
    if FirstWithId(a, id).Some? {
      FoundIsTheOne(b, FirstWithId(a, id).value);
    }
  }

  /**
   * `records.find(a => a._id === id)` as written: the record's `_id` and the
   * entry's `id` are two distinct ObjectId objects, and `===` compares them
   * by reference, so the search never succeeds.
   */
  function FindByReference(records: seq<AudioRecord>, id: string): Option<AudioRecord>
  {
    None
  }

  /** The slots the fill loop writes as written, one per entry. */
  function SlotsAsWritten(content: seq<ContentEntry>, audios: seq<AudioRecord>): (r: seq<Option<AudioRecord>>)
    ensures |r| == |content|
  {
    seq(|content|, i requires 0 <= i < |content| => FindByReference(audios, content[i].id))
  }

  /**
   * As written every slot stays empty, so each audio entry whose record was
   * fetched is lost, where comparing the ids by value finds it.
   */
  lemma ReferenceComparisonLosesRecords(content: seq<ContentEntry>, audios: seq<AudioRecord>)
    ensures forall i :: 0 <= i < |content| ==> SlotsAsWritten(content, audios)[i].None?
    ensures forall i :: 0 <= i < |content| && content[i].kind == Audio && (exists a :: a in audios && a.id == content[i].id) ==>
              HydrateContent(content, audios)[i].Some? && SlotsAsWritten(content, audios)[i] != HydrateContent(content, audios)[i]
  {
  }

  /**
   * What `getPlaylistContent` settles to, with the ids compared by value: the
   * promise rejects (with `null`) when the audio query fails, and also as soon
   * as an entry is not audio, because the video result it reads (`values[1]`)
   * does not exist. Otherwise slot `i` holds the first fetched record whose id
   * is that of entry `i`, or nothing.
   */
  function PlaylistContentOutcome(content: seq<ContentEntry>, fetched: Option<seq<AudioRecord>>)
    : (r: Settled<seq<Option<AudioRecord>>>)
    ensures r.Rejected? <==> fetched.None? || exists i :: 0 <= i < |content| && content[i].kind != Audio
    ensures r.Resolved? ==> |r.value| == |content|
    ensures r.Resolved? ==> forall i :: 0 <= i < |content| ==> r.value[i] == FirstWithId(fetched.value, content[i].id)
  {
    if fetched.None? || exists i :: 0 <= i < |content| && content[i].kind != Audio then Rejected
    else Resolved(seq(|content|, i requires 0 <= i < |content| => FirstWithId(fetched.value, content[i].id)))
  }

  /**
   * `getPlaylistContent(playlist)` with the audio query's answer as input
   * (`None` when it fails): fill the result array index by index.
   */
  method GetPlaylistContent(content: seq<ContentEntry>, fetched: Option<seq<AudioRecord>>)
    returns (r: Settled<seq<Option<AudioRecord>>>)
    ensures r == PlaylistContentOutcome(content, fetched)
  {
    if fetched.None? {
      return Rejected;
    }
    var audios := fetched.value;
    var result := new Option<AudioRecord>[|content|](_ => None);
    var i := 0;
    while i < |content|
      invariant 0 <= i <= |content|
      invariant forall k :: 0 <= k < i ==> content[k].kind == Audio
      invariant forall k :: 0 <= k < i ==> result[k] == FirstWithId(audios, content[k].id)
    {
      if content[i].kind == Audio {
        result[i] := FirstWithId(audios, content[i].id);
      } else {
        return Rejected;   // `videoResult.find` on undefined throws
      }
      i := i + 1;
    }
    var expected := PlaylistContentOutcome(content, fetched);
    assert expected.Resolved?;
    assert expected.value == result[..];
    return Resolved(result[..]);
  }

  /**
   * The audio query as the controller issues it: the module never imports the
   * `Audio` model, so the name is unbound, the promise executor throws a
   * `ReferenceError` and no answer ever arrives.
   */
  function AudioQueryAsWritten(ids: seq<string>): Option<seq<AudioRecord>>
  {
    None
  }

  /** As written, `getPlaylistContent` rejects on every playlist, even an empty one. */
  lemma MissingImportRejectsAll(content: seq<ContentEntry>)
    ensures PlaylistContentOutcome(content, AudioQueryAsWritten(IdsOfKind(content, Audio))) == Rejected
    ensures forall audios :: (forall i :: 0 <= i < |content| ==> content[i].kind == Audio) ==>
              PlaylistContentOutcome(content, Some(audios)).Resolved?
  {
  }

  /** As written, one video entry makes the whole content unavailable. */
  lemma VideoEntryRejectsWholeContent()
    ensures var a1 := AudioRecord("a1", "First");
            var content := [ContentEntry(0, Audio, "a1"), ContentEntry(1, Video, "v1")];
            PlaylistContentOutcome(content, Some([a1])) == Rejected
            && HydrateContent(content, [a1]) == [Some(a1), None]
  {
    var content := [ContentEntry(0, Audio, "a1"), ContentEntry(1, Video, "v1")];
    assert content[1].kind != Audio;
  }

  /**
   * Hydration as intended: one slot per content entry, in content order; an
   * audio entry gets the first fetched record with its id, and every other
   * entry, like an unresolvable one, leaves a hole.
   */
  function HydrateContent(content: seq<ContentEntry>, audios: seq<AudioRecord>): (r: seq<Option<AudioRecord>>)
    ensures |r| == |content|
    ensures forall i :: 0 <= i < |content| ==>
              r[i] == if content[i].kind == Audio then FirstWithId(audios, content[i].id) else None
  {
    seq(|content|, i requires 0 <= i < |content| =>
      if content[i].kind == Audio then FirstWithId(audios, content[i].id) else None)
  }

  /** On content made only of audio entries the corrected hydration agrees with the code. */
  lemma HydrateAgreesOnAudioContent(content: seq<ContentEntry>, audios: seq<AudioRecord>)
    requires forall i :: 0 <= i < |content| ==> content[i].kind == Audio
    ensures PlaylistContentOutcome(content, Some(audios)) == Resolved(HydrateContent(content, audios))
  {
    var outcome := PlaylistContentOutcome(content, Some(audios));
    assert outcome.Resolved?;
    assert outcome.value == HydrateContent(content, audios);
  }

  /**
   * Holes mark exactly the dangling references: when the query answers the
   * stored audio records whose ids the content's audio entries name, slot `i`
   * holds the stored record of entry `i`'s id, and is empty exactly when that
   * record does not exist (or the entry is not audio).
   */
  lemma HydrateResolvesAgainstStore(content: seq<ContentEntry>, store: map<string, AudioRecord>, fetched: seq<AudioRecord>)
    requires forall id :: id in store ==> store[id].id == id
    requires forall a :: a in fetched <==> a.id in IdsOfKind(content, Audio) && a.id in store && store[a.id] == a
    ensures forall i :: 0 <= i < |content| ==>
              HydrateContent(content, fetched)[i]
              == if content[i].kind == Audio && content[i].id in store then Some(store[content[i].id]) else None
  {
    forall i | 0 <= i < |content|
      ensures HydrateContent(content, fetched)[i]
              == if content[i].kind == Audio && content[i].id in store then Some(store[content[i].id]) else None
    {
      var id := content[i].id;
      if content[i].kind == Audio && id in store {
        assert id in IdsOfKind(content, Audio);
        assert store[id] in fetched;
      }
    }
  }

  /**
   * `getOne` as written: after the lookup, the handler calls
   * `getPlaylistContent` without qualifying it, which is not in scope, so the
   * callback throws and every lookup ends in the generic error reply.
   */
  function GetOneAsWritten(id: Value, lookup: Lookup<Playlist>): (events: seq<PlaylistEvent>)
  {
    (if Truthy(id) then [] else [Err("INVALID_ID")])
    + [DbErr("Error while getting a playlist")]   // a failed lookup, or the ReferenceError, caught by `.catch`
  }

  /** As written, `getOne` never answers a playlist. */
  lemma GetOneNeverAnswers(id: Value, lookup: Lookup<Playlist>)
    ensures forall e :: e in GetOneAsWritten(id, lookup) ==> !e.Loaded?
    ensures GetOneAsWritten(id, lookup)[|GetOneAsWritten(id, lookup)| - 1] == DbErr("Error while getting a playlist")
  {
  }

  /**
   * `getOne` with the content helper called through the module: a found
   * playlist is answered with its hydrated content.
   */
  function GetOne(id: Value, lookup: Lookup<Playlist>, fetched: Option<seq<AudioRecord>>): (events: seq<PlaylistEvent>)
    ensures |events| >= 1
    ensures events[|events| - 1].Loaded? <==> lookup.Found? && fetched.Some?
    ensures lookup.Found? && fetched.Some? ==>
              && events[|events| - 1].playlist == lookup.record
              && |events[|events| - 1].content| == |lookup.record.content|
              && events[|events| - 1].content == HydrateContent(lookup.record.content, fetched.value)
  {
    (if Truthy(id) then [] else [Err("INVALID_ID")])
    + match lookup
      case Found(p) =>
        if fetched.Some? then [Loaded(p, HydrateContent(p.content, fetched.value))]
        else [DbErr("Error while getting a playlist")]
      case _ => [DbErr("Error while getting a playlist")]
  }
}

=== FILE: strings.dfy ===
/**
 * The JavaScript string operations the backend relies on: `split`,
 * `join`, `replace` with a string pattern, `indexOf`, suffix tests, ASCII
 * case folding and UTF-8 byte length.
 */
module Strings {
  import opened Common

  /** `s.split(sep)` for a one-character separator: never empty, no part holds `sep`. */
  function Split(s: string, sep: char): (parts: seq<string>)
    ensures |parts| >= 1
    ensures forall i :: 0 <= i < |parts| ==> sep !in parts[i]
    decreases |s|
  {
    if |s| == 0 then [""]
    else
      var rest := Split(s[1..], sep);
      if s[0] == sep then [""] + rest
      else [[s[0]] + rest[0]] + rest[1..]
  }

  /** `parts.join('')` */
  function Concat(parts: seq<string>): string
    decreases |parts|
  {
    if |parts| == 0 then "" else parts[0] + Concat(parts[1..])
  }

  /** `parts.join(sep)` */
  function JoinWith(parts: seq<string>, sep: char): string
    decreases |parts|
  {
    if |parts| == 0 then ""
    else if |parts| == 1 then parts[0]
    else parts[0] + [sep] + JoinWith(parts[1..], sep)
  }

  /** The characters of `s` other than `c`, in order. */
  function Without(s: string, c: char): (r: string)
    ensures c !in r
    ensures |r| <= |s|
    decreases |s|
  {
    if |s| == 0 then ""
    else (if s[0] == c then "" else [s[0]]) + Without(s[1..], c)
  }

  /** Joining the parts of a split with the same separator gives back the string. */
  lemma {:induction false} JoinSplit(s: string, sep: char)
    ensures JoinWith(Split(s, sep), sep) == s
    decreases |s|
  {
    if |s| > 0 {
      var rest := Split(s[1..], sep);
      JoinSplit(s[1..], sep);
      if s[0] == sep {
        assert Split(s, sep) == [""] + rest;
        if |rest| == 1 {
          assert JoinWith([""] + rest, sep) == "" + [sep] + JoinWith(rest, sep);
        } else {
          assert ([""] + rest)[1..] == rest;
        }
      } else {
        var parts := [[s[0]] + rest[0]] + rest[1..];
        assert Split(s, sep) == parts;
        if |rest| == 1 {
          assert JoinWith(parts, sep) == [s[0]] + rest[0];
        } else {
          assert parts[1..] == rest[1..];
          assert JoinWith(parts, sep) == [s[0]] + rest[0] + [sep] + JoinWith(rest[1..], sep);
        }
        assert s == [s[0]] + s[1..];
      }
    }
  }

  /** A string splits into one part exactly when it holds no separator. */
  lemma {:induction false} SplitSingle(s: string, sep: char)
    ensures |Split(s, sep)| == 1 <==> sep !in s
    ensures sep !in s ==> Split(s, sep) == [s]
    decreases |s|
  {
    if |s| > 0 {
      SplitSingle(s[1..], sep);
      assert s == [s[0]] + s[1..];
      if s[0] != sep && sep !in s[1..] {
        assert Split(s, sep) == [[s[0]] + s[1..]];
      }
    }
  }

  /** Gluing the parts of a split together drops exactly the separators. */
  lemma {:induction false} ConcatSplit(s: string, sep: char)
    ensures Concat(Split(s, sep)) == Without(s, sep)
    decreases |s|
  {
    if |s| > 0 {
      var rest := Split(s[1..], sep);
      ConcatSplit(s[1..], sep);
      if s[0] == sep {
        assert ([""] + rest)[1..] == rest;
      } else {
        var parts := [[s[0]] + rest[0]] + rest[1..];
        assert parts[1..] == rest[1..];
        assert Concat(rest) == rest[0] + Concat(rest[1..]);
        assert Concat(parts) == [s[0]] + rest[0] + Concat(rest[1..]);
      }
    }
  }

  /** `Concat` distributes over sequence concatenation of parts. */
  lemma {:induction false} ConcatAppend(a: seq<string>, b: seq<string>)
    ensures Concat(a + b) == Concat(a) + Concat(b)
    decreases |a|
  {
    if |a| > 0 {
      assert (a + b)[1..] == a[1..] + b;
      ConcatAppend(a[1..], b);
    } else {
      assert a + b == b;
    }
  }

  /** With two or more parts, the join ends in the separator and the last part. */
  lemma {:induction false} JoinWithLast(parts: seq<string>, sep: char)
    requires |parts| >= 2
    ensures JoinWith(parts, sep) == JoinWith(parts[..|parts| - 1], sep) + [sep] + parts[|parts| - 1]
    decreases |parts|
  {
    if |parts| > 2 {
      JoinWithLast(parts[1..], sep);
      assert parts[1..][..|parts| - 2] == parts[1..|parts| - 1];
      assert parts[..|parts| - 1][1..] == parts[1..|parts| - 1];
    }
  }

  /** Splitting `a + sep + e`, where `e` holds no separator, ends with the part `e`. */
  lemma {:induction false} SplitLastPart(a: string, sep: char, e: string)
    requires sep !in e
    ensures |Split(a + [sep] + e, sep)| >= 2
    ensures Split(a + [sep] + e, sep)[|Split(a + [sep] + e, sep)| - 1] == e
    decreases |a|
  {
    var s := a + [sep] + e;
    if |a| == 0 {
      assert s[1..] == e;
      SplitSingle(e, sep);
    } else {
      assert s[1..] == a[1..] + [sep] + e;
      SplitLastPart(a[1..], sep, e);
    }
  }

  /** Splitting `a + sep + t`, where `a` holds no separator, gives `a` and then the parts of `t`. */
  lemma {:induction false} SplitPrefix(a: string, sep: char, t: string)
    requires sep !in a
    ensures Split(a + [sep] + t, sep) == [a] + Split(t, sep)
    decreases |a|
  {
    var s := a + [sep] + t;
    if |a| == 0 {
      assert s[1..] == t;
    } else {
      assert s[1..] == a[1..] + [sep] + t;
      SplitPrefix(a[1..], sep, t);
      assert [a[0]] + a[1..] == a;
    }
  }

  /** Splitting a join of separator-free parts gives the parts back. */
  lemma {:induction false} SplitJoin(parts: seq<string>, sep: char)
    requires |parts| >= 1
    requires forall i :: 0 <= i < |parts| ==> sep !in parts[i]
    ensures Split(JoinWith(parts, sep), sep) == parts
    decreases |parts|
  {
    if |parts| == 1 {
      SplitSingle(parts[0], sep);
    } else {
      SplitJoin(parts[1..], sep);
      SplitPrefix(parts[0], sep, JoinWith(parts[1..], sep));
    }
  }

  /** A join of separator-free parts whose last part is non-empty does not end in the separator. */
  lemma JoinWithEnd(parts: seq<string>, sep: char)
    requires |parts| >= 1 && parts[|parts| - 1] != ""
    requires forall i :: 0 <= i < |parts| ==> sep !in parts[i]
    ensures |JoinWith(parts, sep)| > 0
    ensures JoinWith(parts, sep)[|JoinWith(parts, sep)| - 1] != sep
  {
    var last := parts[|parts| - 1];
    assert last[|last| - 1] in last;
    if |parts| >= 2 {
      JoinWithLast(parts, sep);
    }
  }

  /** `parts.filter(Boolean)` on strings: the non-empty parts, in order. */
  function NonEmptyParts(parts: seq<string>): (r: seq<string>)
    ensures forall i :: 0 <= i < |r| ==> r[i] != ""
    ensures forall x :: x in r <==> x in parts && x != ""
    decreases |parts|
  {
    if |parts| == 0 then []
    else
      var rest := NonEmptyParts(parts[..|parts| - 1]);
      var last := parts[|parts| - 1];
      assert parts == parts[..|parts| - 1] + [last];
      if last == "" then rest else rest + [last]
  }

  /** The filter distributes over concatenation, so it keeps order and every occurrence. */
  lemma {:induction false} NonEmptyPartsAppend(a: seq<string>, b: seq<string>)
    ensures NonEmptyParts(a + b) == NonEmptyParts(a) + NonEmptyParts(b)
    decreases |b|
  {
    if |b| == 0 {
      assert a + b == a;
    } else {
      var b', y := b[..|b| - 1], b[|b| - 1];
      NonEmptyPartsAppend(a, b');
      assert (a + b)[..|a + b| - 1] == a + b';
      assert (a + b)[|a + b| - 1] == y;
      if y != "" {
        assert (NonEmptyParts(a) + NonEmptyParts(b')) + [y] == NonEmptyParts(a) + (NonEmptyParts(b') + [y]);
      }
    }
  }

  /** A single part is kept exactly when it is non-empty. */
  lemma NonEmptyPartsOne(x: string)
    ensures NonEmptyParts([x]) == if x == "" then [] else [x]
  {
    assert [x][..0] == [];
  }

  /** Parts that are all non-empty pass the filter unchanged. */
  lemma {:induction false} NonEmptyPartsKeepsAll(parts: seq<string>)
    requires forall i :: 0 <= i < |parts| ==> parts[i] != ""
    ensures NonEmptyParts(parts) == parts
    decreases |parts|
  {
    if |parts| > 0 {
      NonEmptyPartsKeepsAll(parts[..|parts| - 1]);
    }
  }

  /** `s.endsWith(suffix)` */
  predicate EndsWith(s: string, suffix: string)
  {
    |suffix| <= |s| && s[|s| - |suffix|..] == suffix
  }

  /** `s[s.length - 1] === '/'`; the empty string has no last character. */
  predicate EndsWithSlash(s: string)
  {
    |s| > 0 && s[|s| - 1] == '/'
  }

  /** The first position at or after `k` at which `pat` occurs in `s`. */
  function IndexFrom(s: string, pat: string, k: nat): (r: Option<nat>)
    requires k <= |s|
    ensures r.Some? ==> k <= r.value <= |s| && pat <= s[r.value..]
    ensures r.Some? ==> forall j :: k <= j < r.value ==> !(pat <= s[j..])
    ensures r.None? ==> forall j :: k <= j <= |s| ==> !(pat <= s[j..])
    decreases |s| - k
  {
    if pat <= s[k..] then Some(k)
    else if k == |s| then None
    else IndexFrom(s, pat, k + 1)
  }

  /** The first position at which `pat` occurs in `s` (`s.indexOf(pat)`). */
  function IndexOf(s: string, pat: string): (r: Option<nat>)
  {
    IndexFrom(s, pat, 0)
  }

  /** `/sub/.test(s)` for a literal `sub`. */
  predicate Contains(s: string, sub: string)
  {
    IndexOf(s, sub).Some?
  }

  /** `s.replace(pat, rep)` with a string pattern: only the first occurrence is replaced. */
  function ReplaceFirst(s: string, pat: string, rep: string): (r: string)
    ensures IndexOf(s, pat).None? ==> r == s
  {
    match IndexOf(s, pat)
    case None => s
    case Some(i) => s[..i] + rep + s[i + |pat|..]
  }

  /** Removing a prefix with `replace` leaves exactly the rest of the string. */
  lemma ReplacePrefix(s: string, pat: string)
    requires pat <= s
    ensures ReplaceFirst(s, pat, "") == s[|pat|..]
  {
    assert s[..0] == "";
  }

  /** ASCII case folding, which is all the `i` flag does for these patterns. */
  function Lower(c: char): char
  {
    if 'A' <= c <= 'Z' then (c as int - 'A' as int + 'a' as int) as char else c
  }

  function LowerStr(s: string): (r: string)
    ensures |r| == |s|
    ensures forall i :: 0 <= i < |s| ==> r[i] == Lower(s[i])
  {
    seq(|s|, i requires 0 <= i < |s| => Lower(s[i]))
  }

  /** The number of bytes of the UTF-8 encoding of `c`. */
  function Utf8Width(c: char): (n: nat)
    ensures 1 <= n <= 4
  {
    if c as int < 0x80 then 1
    else if c as int < 0x800 then 2
    else if c as int < 0x10000 then 3
    else 4
  }

  /** The UTF-8 byte length of `s`, as `validator.isByteLength` measures it. */
  function Utf8Length(s: string): (n: nat)
    ensures |s| <= n <= 4 * |s|
    decreases |s|
  {
    if |s| == 0 then 0 else Utf8Width(s[0]) + Utf8Length(s[1..])
  }
}

=== FILE: validations_media.dfy ===
/**
 * The upload payload validator of validations/media.js. It is the one
 * validator that changes its argument: the text 'null' in `folderId` is
 * replaced by `null` in place. Id validity is a predicate given by the caller.
 */
module MediaValidation {
  import opened Common

  /** The request body the validator receives and may rewrite. */
  class Payload {
    var fields: map<string, Value>

    constructor (fields: map<string, Value>)
      ensures this.fields == fields
    {
      this.fields := fields;
    }
  }

  /** The errors for a given `folderId`: at most one, and only for a malformed id other than 'null'. */
  function MediaUploadErrors(folderId: Value, isValidId: Value -> bool): (errors: seq<ErrorObj>)
    ensures |errors| <= 1
    ensures errors == [] <==> folderId == Str("null") || isValidId(folderId)
    ensures errors != [] ==> errors == [FieldError(UnknownFolder, "folderId")]
  {
    if folderId != Str("null") && !isValidId(folderId) then [FieldError(UnknownFolder, "folderId")] else []
  }

  /**
   * `validateMediaUpload(data, mediaType)`: the media type is not used. A
   * `folderId` of 'null' is accepted and becomes `null`; any other is checked
   * and the payload is left as it is.
   */
  method ValidateMediaUpload(data: Payload, mediaType: MediaType, isValidId: Value -> bool) returns (r: Verdict)
    modifies data
    ensures r == Conclude(MediaUploadErrors(Get(old(data.fields), "folderId"), isValidId))
    ensures Get(old(data.fields), "folderId") == Str("null") ==> data.fields == old(data.fields)["folderId" := Null]
    ensures Get(old(data.fields), "folderId") != Str("null") ==> data.fields == old(data.fields)
  {
    var folderId := Get(data.fields, "folderId");
    var errors: seq<ErrorObj> := [];
    if folderId != Str("null") && !isValidId(folderId) {
      errors := errors + [FieldError(UnknownFolder, "folderId")];
    }
    if folderId == Str("null") {
      data.fields := data.fields["folderId" := Null];
    }
    r := Conclude(errors);
  }
}

=== FILE: validations_playlist.dfy ===
/**
 * The playlist payload validators of validations/playlist.js. Each pushes
 * error objects onto a list and reports `isCorrect` exactly when the list
 * stays empty. Id validity is a predicate given by the caller; the configured
 * media types, the audio type and the stored audio ids are inputs.
 */
module PlaylistValidation {
  import opened Common

  /** `validateCreate`: only `name` is checked, `cover` is ignored. */
  method ValidateCreate(data: map<string, Value>) returns (r: Verdict)
    ensures r.isCorrect <==> Truthy(Get(data, "name"))
    ensures r.isCorrect ==> r.errors == []
    ensures !r.isCorrect ==> r.errors == [FieldError(Required, "name")]
  {
    var errors: seq<ErrorObj> := [];
    if !Truthy(Get(data, "name")) {
      errors := errors + [FieldError(Required, "name")];
    }
    r := Conclude(errors);
  }

  /** `null` and `undefined`, on which `hasOwnProperty` throws. */
  predicate Nullish(v: Value)
  {
    v.Undefined? || v.Null?
  }

  /** An item `{id, type}` with a string id and one of the configured media types. */
  predicate WellFormedItem(c: Value, mediaTypes: seq<Value>)
  {
    c.Obj? && "id" in c.fields && "type" in c.fields && c.fields["id"].Str? && c.fields["type"] in mediaTypes
  }

  /**
   * `items.every(...)`: stops at the first item that is not well formed; a
   * `null` or `undefined` item reached on the way makes it throw.
   */
  function EveryWellFormed(elems: seq<Value>, mediaTypes: seq<Value>): (r: Settled<bool>)
    ensures r == Resolved(true) <==> forall i :: 0 <= i < |elems| ==> WellFormedItem(elems[i], mediaTypes)
    ensures r.Rejected? <==>
              exists i :: 0 <= i < |elems| && Nullish(elems[i])
                          && forall j :: 0 <= j < i ==> WellFormedItem(elems[j], mediaTypes)
    decreases |elems|
  {
    if |elems| == 0 then Resolved(true)
    else if Nullish(elems[0]) then Rejected
    else if !WellFormedItem(elems[0], mediaTypes) then Resolved(false)
    else
      var rest := EveryWellFormed(elems[1..], mediaTypes);
      assert forall i :: 1 <= i < |elems| ==> elems[i] == elems[1..][i - 1];
      if rest.Rejected? then
        var k :| 0 <= k < |elems| - 1 && Nullish(elems[1..][k])
                 && forall j :: 0 <= j < k ==> WellFormedItem(elems[1..][j], mediaTypes);
        assert Nullish(elems[k + 1]) && forall j :: 0 <= j < k + 1 ==> WellFormedItem(elems[j], mediaTypes);
        rest
      else rest
  }

  /** Every item is an object whose `id` is a string (what the structure check has made sure of). */
  predicate Shaped(elems: seq<Value>)
  {
    forall i :: 0 <= i < |elems| ==> elems[i].Obj? && "id" in elems[i].fields && elems[i].fields["id"].Str?
  }

  /** `items.filter(i => i.type === audioType).map(i => i.id)` */
  function AudioIds(elems: seq<Value>, audioType: Value): (r: seq<string>)
    requires Shaped(elems)
    ensures |r| <= |elems|
    ensures forall x :: x in r <==>
              exists i :: 0 <= i < |elems| && Get(elems[i].fields, "type") == audioType && elems[i].fields["id"].s == x
    decreases |elems|
  {
    if |elems| == 0 then []
    else
      var e := elems[|elems| - 1];
      var rest := AudioIds(elems[..|elems| - 1], audioType);
      assert forall i :: 0 <= i < |elems| - 1 ==> elems[..|elems| - 1][i] == elems[i];
      if Get(e.fields, "type") == audioType then rest + [e.fields["id"].s] else rest
  }

  /** One item contributes its id when its type is audio, and nothing otherwise. */
  lemma AudioIdsOne(e: Value, audioType: Value)
    requires e.Obj? && "id" in e.fields && e.fields["id"].Str?
    ensures Shaped([e])
    ensures AudioIds([e], audioType) == if Get(e.fields, "type") == audioType then [e.fields["id"].s] else []
  {
    assert [e][..0] == [];
  }

  /** Collecting audio ids distributes over concatenation: item order is kept, one id per audio item. */
  lemma {:induction false} AudioIdsAppend(a: seq<Value>, b: seq<Value>, audioType: Value)
    requires Shaped(a) && Shaped(b)
    ensures Shaped(a + b)
    ensures AudioIds(a + b, audioType) == AudioIds(a, audioType) + AudioIds(b, audioType)
    decreases |b|
  {
    assert forall i :: 0 <= i < |a + b| ==> (a + b)[i] == if i < |a| then a[i] else b[i - |a|];
    if |b| == 0 {
      assert a + b == a;
    } else {
      var b', y := b[..|b| - 1], b[|b| - 1];
      assert forall i :: 0 <= i < |b'| ==> b'[i] == b[i];
      AudioIdsAppend(a, b', audioType);
      assert (a + b)[..|a + b| - 1] == a + b';
      assert (a + b)[|a + b| - 1] == y;
      var ra, rb' := AudioIds(a, audioType), AudioIds(b', audioType);
      if Get(y.fields, "type") == audioType {
        assert (ra + rb') + [y.fields["id"].s] == ra + (rb' + [y.fields["id"].s]);
      }
    }
  }

  /** The number of records `Audio.find({_id: {$in: ids}})` answers: the distinct stored ids. */
  function FoundCount(ids: seq<string>, store: set<string>): nat
  {
    |set id | id in ids && id in store|
  }

  /** The query answers as many records as ids exactly when the ids are distinct and all stored. */
  lemma {:induction false} FoundCountMatches(ids: seq<string>, store: set<string>)
    ensures FoundCount(ids, store) <= |ids|
    ensures FoundCount(ids, store) == |ids| <==> Distinct(ids) && forall id :: id in ids ==> id in store
    decreases |ids|
  {
    if |ids| > 0 {
      var ids', x := ids[..|ids| - 1], ids[|ids| - 1];
      FoundCountMatches(ids', store);
      assert ids == ids' + [x];
      DistinctSnoc(ids', x);
      var s', s := set id | id in ids' && id in store, set id | id in ids && id in store;
      if x in store && x !in s' {
        assert s == s' + {x};
        assert x !in ids';
      } else {
        assert s == s';
      }
    }
  }

  /**
   * The error the items checks produce, if any, as one `else if` chain: a
   * falsy `items`, a non-array, an empty array, a badly formed item, and
   * then the existence check of the audio ids. A query failure reports an
   * internal error; a count mismatch reports `mismatch`.
   */
  function ItemsErrors(items: Value, mediaTypes: seq<Value>, audioType: Value, store: set<string>,
                       queryFails: bool, mismatch: ErrorCode): (r: Settled<seq<ErrorObj>>)
    ensures r.Resolved? ==> |r.value| <= 1
    ensures !Truthy(items) ==> r == Resolved([FieldError(Required, "items")])
    ensures Truthy(items) && !items.Arr? ==> r == Resolved([PlainError(InvalidItemsStructure)])
    ensures items.Arr? && items.elems == [] ==> r == Resolved([PlainError(EmptyItems)])
    ensures items.Arr? && items.elems != [] ==>
              && (r.Rejected? <==> EveryWellFormed(items.elems, mediaTypes).Rejected?)
              && (EveryWellFormed(items.elems, mediaTypes) == Resolved(false) ==>
                    r == Resolved([PlainError(InvalidItemsStructure)]))
  {
    if !Truthy(items) then Resolved([FieldError(Required, "items")])
    else if !items.Arr? then Resolved([PlainError(InvalidItemsStructure)])
    else if |items.elems| == 0 then Resolved([PlainError(EmptyItems)])
    else
      match EveryWellFormed(items.elems, mediaTypes)
      case Rejected => Rejected
      case Resolved(ok) =>
        if !ok then Resolved([PlainError(InvalidItemsStructure)])
        else
          assert Shaped(items.elems);
          var ids := AudioIds(items.elems, audioType);
          if queryFails then Resolved([PlainError(InternalServerError)])
          else if FoundCount(ids, store) != |ids| then Resolved([PlainError(mismatch)])
          else Resolved([])
  }

  /**
   * On well-formed items whose query succeeds, the existence check passes
   * exactly when the audio ids are distinct and all stored; a failing check
   * reports `mismatch` and nothing else.
   */
  lemma ExistenceCheck(elems: seq<Value>, mediaTypes: seq<Value>, audioType: Value, store: set<string>, mismatch: ErrorCode)
    requires elems != [] && forall i :: 0 <= i < |elems| ==> WellFormedItem(elems[i], mediaTypes)
    ensures Shaped(elems)
    ensures var ids := AudioIds(elems, audioType);
            var r := ItemsErrors(Arr(elems), mediaTypes, audioType, store, false, mismatch);
            && (r == Resolved([]) <==> Distinct(ids) && forall id :: id in ids ==> id in store)
            && (r != Resolved([]) ==> r == Resolved([PlainError(mismatch)]))
  {
    FoundCountMatches(AudioIds(elems, audioType), store);
  }

  /**
   * `validateIdAndItems` as written: the inner `const result` (the query's
   * array) shadows the result object, so pushing the mismatch error throws
   * and the surrounding catch reports an internal server error instead.
   */
  method ValidateIdAndItems(data: map<string, Value>, isValidId: Value -> bool, mediaTypes: seq<Value>,
                            audioType: Value, store: set<string>, queryFails: bool) returns (r: Settled<Verdict>)
    ensures var items := ItemsErrors(Get(data, "items"), mediaTypes, audioType, store, queryFails, InternalServerError);
            var idErrors := if isValidId(Get(data, "id")) then [] else [FieldError(UnknownPlaylist, "id")];
            && (r.Rejected? <==> items.Rejected?)
            && (r.Resolved? ==> r.value == Conclude(idErrors + items.value))
  {
    var errors: seq<ErrorObj> := [];
    if !isValidId(Get(data, "id")) {
      errors := errors + [FieldError(UnknownPlaylist, "id")];
    }
    var items := Get(data, "items");
    if !Truthy(items) {
      errors := errors + [FieldError(Required, "items")];
    } else if !items.Arr? {
      errors := errors + [PlainError(InvalidItemsStructure)];
    } else if |items.elems| == 0 {
      errors := errors + [PlainError(EmptyItems)];
    } else {
      var every := EveryWellFormed(items.elems, mediaTypes);
      if every.Rejected? {
        return Rejected;   // `hasOwnProperty` on a null item
      }
      if !every.value {
        errors := errors + [PlainError(InvalidItemsStructure)];
      } else {
        var ids := AudioIds(items.elems, audioType);
        if queryFails || FoundCount(ids, store) != |ids| {
          errors := errors + [PlainError(InternalServerError)];
        }
      }
    }
    r := Resolved(Conclude(errors));
  }

  /** As written, a playlist item naming an audio that does not exist is reported as a server error. */
  lemma MissingAudioReportedAsInternal()
    ensures var item := Obj(map["id" := Str("a1"), "type" := Str("audio")]);
            var asWritten := ItemsErrors(Arr([item]), [Str("audio")], Str("audio"), {}, false, InternalServerError);
            var intended := IntendedItemsErrors(Arr([item]), [Str("audio")], Str("audio"), {}, false);
            asWritten == Resolved([PlainError(InternalServerError)])
            && intended == Resolved([PlainError(InvalidItems)])
  {
    var item := Obj(map["id" := Str("a1"), "type" := Str("audio")]);
    assert WellFormedItem(item, [Str("audio")]);
    assert AudioIds([item], Str("audio")) == ["a1"];
    assert "a1" !in (set id | id in ["a1"] && id in {});
  }

  /**
   * The items checks as intended: a missing or repeated audio id is reported
   * as `INVALID_ITEMS`, and only a failing query as an internal error.
   */
  function IntendedItemsErrors(items: Value, mediaTypes: seq<Value>, audioType: Value, store: set<string>,
                               queryFails: bool): (r: Settled<seq<ErrorObj>>)
    ensures r == ItemsErrors(items, mediaTypes, audioType, store, queryFails, InvalidItems)
    ensures r.Resolved? && PlainError(InternalServerError) in r.value ==> queryFails
    ensures items.Arr? && (forall i :: 0 <= i < |items.elems| ==> WellFormedItem(items.elems[i], mediaTypes))
            && items.elems != [] && !queryFails ==>
              Shaped(items.elems)
              && (r == Resolved([PlainError(InvalidItems)]) <==>
                    var ids := AudioIds(items.elems, audioType);
                    !(Distinct(ids) && forall id :: id in ids ==> id in store))
  {
    var r := ItemsErrors(items, mediaTypes, audioType, store, queryFails, InvalidItems);
    if items.Arr? && (forall i :: 0 <= i < |items.elems| ==> WellFormedItem(items.elems[i], mediaTypes))
       && items.elems != [] && !queryFails
    then
      ExistenceCheck(items.elems, mediaTypes, audioType, store, InvalidItems);
      r
    else r
  }

  /**
   * `validateUpdate`: `name` and `description` are optional; a value that is
   * present (truthy) but not a non-empty string is invalid.
   */
  method ValidateUpdate(data: map<string, Value>, isValidId: Value -> bool) returns (r: Verdict)
    ensures FieldError(UnknownPlaylist, "id") in r.errors <==> !isValidId(Get(data, "id"))
    ensures FieldError(Invalid, "name") in r.errors <==> Truthy(Get(data, "name")) && !Get(data, "name").Str?
    ensures FieldError(Invalid, "description") in r.errors
            <==> Truthy(Get(data, "description")) && !Get(data, "description").Str?
    ensures r.errors == Pushed(!isValidId(Get(data, "id")), FieldError(UnknownPlaylist, "id"))
                        + Pushed(Truthy(Get(data, "name")) && !Get(data, "name").Str?, FieldError(Invalid, "name"))
                        + Pushed(Truthy(Get(data, "description")) && !Get(data, "description").Str?,
                                 FieldError(Invalid, "description"))
    ensures r.isCorrect <==> r.errors == []
    ensures |r.errors| <= 3
    ensures r.isCorrect <==>
              isValidId(Get(data, "id"))
              && (Truthy(Get(data, "name")) ==> Get(data, "name").Str?)
              && (Truthy(Get(data, "description")) ==> Get(data, "description").Str?)
  {
    var errors: seq<ErrorObj> := [];
    if !isValidId(Get(data, "id")) {
      errors := errors + [FieldError(UnknownPlaylist, "id")];
    }
    var name := Get(data, "name");
    if Truthy(name) && !(name.Str? && |name.s| > 0) {
      errors := errors + [FieldError(Invalid, "name")];
    }
    var description := Get(data, "description");
    if Truthy(description) && !(description.Str? && |description.s| > 0) {
      errors := errors + [FieldError(Invalid, "description")];
    }
    r := Conclude(errors);
  }
}

=== FILE: validations_user.dfy ===
/**
 * The user payload validators of validations/user.js. The e-mail syntax
 * check of the `validator` library is a predicate given by the caller; its
 * byte-length check is the UTF-8 length. Both library checks accept strings
 * only and throw a `TypeError` on any other value.
 */
module UserValidation {
  import opened Common
  import opened Strings

  /** The shortest accepted password, in UTF-8 bytes. */
  const MinPasswordBytes: nat := 4

  /** A value the `validator` checks would refuse to look at: present but not a string. */
  predicate NonString(v: Value)
  {
    Truthy(v) && !v.Str?
  }

  /**
   * The five guarded pushes of `validateCreateUser` in source order, given
   * which guards hold: a missing login, e-mail or password, an e-mail the
   * syntax check refuses and a password that is too short. The last two
   * guards only hold for a present field.
   */
  function CreateUserPushes(noLogin: bool, noEmail: bool, noPassword: bool, badEmail: bool, weak: bool)
    : (errors: seq<ErrorObj>)
    requires !(noEmail && badEmail) && !(noPassword && weak)
    ensures FieldError(Required, "login") in errors <==> noLogin
    ensures FieldError(Required, "email") in errors <==> noEmail
    ensures FieldError(Required, "password") in errors <==> noPassword
    ensures FieldError(InvalidEmail, "email") in errors <==> badEmail
    ensures FieldError(WeakPassword, "password") in errors <==> weak
    ensures errors == [] <==> !noLogin && !noEmail && !noPassword && !badEmail && !weak
    ensures |errors| <= 3
  {
    Pushed(noLogin, FieldError(Required, "login"))
    + Pushed(noEmail, FieldError(Required, "email"))
    + Pushed(noPassword, FieldError(Required, "password"))
    + Pushed(badEmail, FieldError(InvalidEmail, "email"))
    + Pushed(weak, FieldError(WeakPassword, "password"))
  }

  /**
   * The errors `validateCreateUser` pushes, in push order, once neither
   * library check throws: `REQUIRED` for each falsy field, then the e-mail
   * syntax, then the password length.
   */
  function CreateUserErrors(login: Value, email: Value, password: Value, isEmail: string -> bool): (errors: seq<ErrorObj>)
    requires !NonString(email) && !NonString(password)
    ensures FieldError(Required, "login") in errors <==> !Truthy(login)
    ensures FieldError(Required, "email") in errors <==> !Truthy(email)
    ensures FieldError(Required, "password") in errors <==> !Truthy(password)
    ensures FieldError(InvalidEmail, "email") in errors <==> Truthy(email) && !isEmail(email.s)
    ensures FieldError(WeakPassword, "password") in errors <==> Truthy(password) && Utf8Length(password.s) < MinPasswordBytes
    ensures errors == [] <==>
              Truthy(login) && Truthy(email) && Truthy(password) && isEmail(email.s) && Utf8Length(password.s) >= MinPasswordBytes
    ensures |errors| <= 3
  {
    CreateUserPushes(!Truthy(login), !Truthy(email), !Truthy(password),
                     Truthy(email) && !isEmail(email.s),
                     Truthy(password) && Utf8Length(password.s) < MinPasswordBytes)
  }

  /**
   * `validateCreateUser`: `REQUIRED` for each falsy field among login, email
   * and password, in that order; then an invalid e-mail; then a password
   * shorter than four bytes. `None` when a library check throws.
   */
  method ValidateCreateUser(data: map<string, Value>, isEmail: string -> bool) returns (r: Option<Verdict>)
    ensures r.None? <==> NonString(Get(data, "email")) || NonString(Get(data, "password"))
    ensures r.Some? ==>
              var login, email, password := Get(data, "login"), Get(data, "email"), Get(data, "password");
              r.value == Conclude(CreateUserErrors(login, email, password, isEmail))
    ensures r.Some? ==> (r.value.isCorrect <==> r.value.errors == [])
    ensures r.Some? ==> |r.value.errors| <= 3
    ensures r.Some? && |r.value.errors| > 0 && r.value.errors[0].code != Required ==>
              Truthy(Get(data, "login")) && Truthy(Get(data, "email")) && Truthy(Get(data, "password"))
  {
    var login, email, password := Get(data, "login"), Get(data, "email"), Get(data, "password");
    var noLogin, noEmail, noPassword := !Truthy(login), !Truthy(email), !Truthy(password);
    var errors := Pushed(noLogin, FieldError(Required, "login"));
    errors := errors + Pushed(noEmail, FieldError(Required, "email"));
    errors := errors + Pushed(noPassword, FieldError(Required, "password"));
    if !noEmail && !email.Str? {
      return None;   // `isEmail` asserts a string argument
    }
    var badEmail := !noEmail && !isEmail(email.s);
    errors := errors + Pushed(badEmail, FieldError(InvalidEmail, "email"));
    if !noPassword && !password.Str? {
      return None;   // `isByteLength` asserts a string argument
    }
    var weak := !noPassword && Utf8Length(password.s) < MinPasswordBytes;
    errors := errors + Pushed(weak, FieldError(WeakPassword, "password"));
    assert errors == CreateUserPushes(noLogin, noEmail, noPassword, badEmail, weak);
    return Some(Conclude(errors));
  }

  /** `validateAuthenticate`: `REQUIRED` for a falsy login and for a falsy password, nothing else. */
  method ValidateAuthenticate(data: map<string, Value>) returns (r: Verdict)
    ensures FieldError(Required, "login") in r.errors <==> !Truthy(Get(data, "login"))
    ensures FieldError(Required, "password") in r.errors <==> !Truthy(Get(data, "password"))
    ensures r.errors == Pushed(!Truthy(Get(data, "login")), FieldError(Required, "login"))
                        + Pushed(!Truthy(Get(data, "password")), FieldError(Required, "password"))
    ensures r.isCorrect <==> r.errors == []
    ensures forall e :: e in r.errors ==> e.code == Required
    ensures |r.errors| <= 2
    ensures r.isCorrect <==> Truthy(Get(data, "login")) && Truthy(Get(data, "password"))
  {
    var errors: seq<ErrorObj> := [];
    if !Truthy(Get(data, "login")) {
      errors := errors + [FieldError(Required, "login")];
    }
    if !Truthy(Get(data, "password")) {
      errors := errors + [FieldError(Required, "password")];
    }
    r := Conclude(errors);
  }

  /** `validateRefreshToken`: `REQUIRED` exactly when the token is falsy. */
  method ValidateRefreshToken(data: map<string, Value>) returns (r: Verdict)
    ensures r.isCorrect <==> Truthy(Get(data, "refreshToken"))
    ensures r.isCorrect ==> r.errors == []
    ensures !r.isCorrect ==> r.errors == [FieldError(Required, "refreshToken")]
  {
    var errors: seq<ErrorObj> := [];
    if !Truthy(Get(data, "refreshToken")) {
      errors := errors + [FieldError(Required, "refreshToken")];
    }
    r := Conclude(errors);
  }
}
